=== FILE: README.md ===
# Bitcoin testnet wallet backend: validation, selection and request gates

This project models the core of a small Django + React Bitcoin-testnet
wallet in Dafny. The backend checks addresses, amounts, signed
transactions and transaction hashes. It picks the unspent output to spend
first-fit, drafts unsigned transactions and broadcasts signed ones. It
also keeps cached snapshots of address balances and refreshes them after
thirty minutes. The frontend reads its CSRF token from `document.cookie`.

What the model covers:

- `utils.py` helpers:
  - the address pattern, with Python's `re.match`/`$` semantics;
  - the address check, which combines that pattern with the provider's verdict;
  - first-fit selection;
  - the transaction-hash check, with the grammar Python's `int(s, 16)` accepts, ASCII hex digits only;
  - the structural check of a signed transaction;
  - txid extraction;
  - the payload filter;
  - the unsigned-transaction tuple.
- Five of the six JSON views of `views.py`, as functions of the request
  fields and the remote collaborators. Each returns the response together with the
  ordered list of remote calls it made, so "checked before" and "never
  looked up" can be stated.
- The `Address` model of `models.py`: its sign invariants, `__str__`, the
  ORM lookup by address string, and the insert and refresh.
- `getCookie` of `transactionComponent.jsx`.

Remote collaborators are not called. They are the fields of a `Provider`
value: each one is a function returning `Returned(v)` or `Raised(e)`. These
collaborators are blockcypher's address check, address details, push and
confirmation count, plus bit's unspent-output list, raw-transaction fetch
and fee. The two binary transaction decoders are passed in the same way.
An exception that leaves a view is the response `Uncaught(e)`, which is an
HTTP 500.

## Behaviour the model keeps as written

- **The balance gate mixes units.** `get_transaction_data` compares the
  balance in satoshis plus the fee with the amount in bitcoin
  (views.py:35). The amount is converted to satoshis only later
  (utils.py:47). So a source holding one satoshi passes for half a
  bitcoin. The selection then finds no output, and reading `txid` from
  `None` raises `AttributeError` (`Views.UnitMismatchCrashes`).
- **Negative amounts pass.** The amount gate rejects only zero and
  non-numbers. A negative amount yields a draft with a negative satoshi
  count (`Views.NegativeAmountDrafts`).
- **First-fit returns the crossing output.** It returns the output at which
  the running total first reaches the requirement, not an output that
  covers it alone. For amounts 100, 200, 300, 500 and requirement 500 it
  returns the 300 output. The repository's test at tests/test_utils.py:33-35
  expects 500; the model follows the code.
- **Hash check leniency.** `is_valid_tx_hash` accepts any 64-character
  string that `int(_, 16)` parses. That includes surrounding whitespace, a
  sign, a `0x` prefix and single underscores between digits.
- **Address pattern newline.** The address pattern accepts one trailing newline.
- **Uniqueness depends on the provider.** The `address` column is not unique.
  `create_address` looks the row up by the requested string but inserts
  the payload's `address`. So uniqueness holds only when the provider
  echoes the address (`AddressViews.CreateKeepsUnique` and its
  counterexample `AddressViews.CreateDuplicatesWithoutEcho`).
- **A push can succeed while the view reports failure.** Broadcasting
  reports an error when the transaction identifier cannot be taken after
  a successful push.
- **`validate_address` returns `False` rather than raising.** The
  repository's tests at tests/test_utils.py:28-31 expect a raise; the model
  follows the code. Both outcomes reject the address in the views.

## Model

| member | source | states |
|---|---|---|
| UtxoSelection.FirstFit | backend/caseStudy/myapp/utils.py:28-42 | returns `None` exactly when no running total reaches the requirement; otherwise returns the output at an index where the running total first reaches it |
| UtxoSelection.CrossingFrom | backend/caseStudy/myapp/utils.py:33-40 | the loop from index `i` with the running total so far: the index it stops at reaches the requirement and no earlier one from `i` does; `None` means none from `i` reaches it |
| UtxoSelection.FirstCrossingUnique | backend/caseStudy/myapp/utils.py:36-40 | there is at most one first crossing index |
| UtxoSelection.FirstFitSelectsFirstCrossing | backend/caseStudy/myapp/utils.py:36-40 | the output at the first crossing index is the one returned |
| UtxoSelection.FirstFitEmpty | backend/caseStudy/myapp/utils.py:33-42 | an empty list yields `None` |
| UtxoSelection.TotalMonotone | backend/caseStudy/myapp/utils.py:37 | with non-negative amounts the running total never decreases |
| UtxoSelection.FirstFitNoneIffShortfall | backend/caseStudy/myapp/utils.py:33-42 | with non-negative amounts, `None` exactly when the list is empty or the total of all amounts is below the requirement |
| UtxoSelection.FirstFitIgnoresLaterOutputs | backend/caseStudy/myapp/utils.py:38-40 | once an output is selected, appending more outputs does not change the choice (the loop breaks) |
| UtxoSelection.FirstFitBoundaryExample | backend/caseStudy/myapp/utils.py:28-42 | for amounts 100, 200, 300, 500 and requirement 500 the 300 output is selected |
| AddressFormat.IsValidAddressFormat | backend/caseStudy/myapp/utils.py:65-69 | the greedy scan accepts exactly the strings the pattern describes: a version character from `1 2 3 m n`, 25 to 34 base58 characters, then the end or one final newline |
| AddressFormat.Base58Run | backend/caseStudy/myapp/utils.py:66 | the greedy repetition: every character counted is base58 and the next one is not |
| AddressFormat.AcceptedAddressShape | backend/caseStudy/myapp/utils.py:66 | an accepted string is 26 to 36 characters long and has no `0 O I l` after its first character |
| AddressFormat.AcceptsKnownAddress | backend/caseStudy/myapp/utils.py:65-69 | the genesis address `1A1zP1eP5QGefi2DMPTfTL5SLmv7DivfNa` is accepted |
| AddressFormat.BodyWithNewline | backend/caseStudy/myapp/utils.py:66-67 | any version character plus 25 to 34 base58 characters followed by one newline is accepted, because `$` matches before a final newline |
| AddressFormat.AcceptsTrailingNewline | backend/caseStudy/myapp/utils.py:66-67 | the genesis address followed by a newline is also accepted |
| AddressFormat.RejectsExamples | backend/caseStudy/myapp/utils.py:65-69 | `invalidAddress` and an address ending in `0` are rejected |
| AddressFormat.IsValidBitcoinAddress | backend/caseStudy/myapp/utils.py:57-62 | true exactly when the format passes and the provider answers true; raises exactly when the format passes and the provider raises, with the provider's exception; the provider is called once if the format passes and never otherwise |
| TxHash.IsValidTxHash | backend/caseStudy/myapp/utils.py:111-122 | 64 characters, and `int(_, 16)` parses them: the six ASCII whitespace characters and non-ASCII Unicode whitespace around the literal, an optional sign, an optional `0x`/`0X` prefix with at most one underscore after it, then hex digits with single underscores between them |
| TxHash.HexStringValidIffLength64 | backend/caseStudy/myapp/utils.py:111-122 | a non-empty string of hex digits is accepted exactly when it has 64 characters |
| TxHash.AcceptedCharacters | backend/caseStudy/myapp/utils.py:111-122 | an accepted hash consists only of hex digits, `x`/`X`, underscores, signs and whitespace |
| TxHash.DocumentedHashes | backend/caseStudy/myapp/utils.py:111-122 | 64 `a`s are accepted and 63 are not |
| TxHash.NonHexLetterRejected | backend/caseStudy/myapp/utils.py:117-122 | a string whose first character is neither whitespace, a sign nor a hex digit, and whose last character is not whitespace, is never parsed by `int(_, 16)`, whatever its length |
| TxHash.NonHexHashRejected | backend/caseStudy/myapp/utils.py:117-122 | 64 `g`s have the right length but `int(_, 16)` rejects them |
| TxHash.FileSeparatorRejected | backend/caseStudy/myapp/utils.py:117-122 | a leading U+001C is not skipped as whitespace, so U+001C followed by 63 hex digits is rejected |
| TxHash.LenientPrefix | backend/caseStudy/myapp/utils.py:118 | `0x` followed by 62 hex digits is accepted |
| TxHash.LenientSign | backend/caseStudy/myapp/utils.py:118 | `-` followed by 63 hex digits is accepted |
| TxHash.LenientWhitespace | backend/caseStudy/myapp/utils.py:118 | a space, 62 hex digits and a newline are accepted |
| SignedTx.IsValidSignedTransaction | backend/caseStudy/myapp/utils.py:87-101 | true exactly when decoding succeeds, there is at least one input and every unlocking script is non-empty; a `ValueError` or `ValidationError` from decoding gives false; any other decoding exception propagates unchanged |
| SignedTx.GetTxid | backend/caseStudy/myapp/utils.py:9-16 | returns exactly when decoding succeeds with at least one input, and then returns the first input's outpoint hash; no inputs gives `KeyError`; a decoding failure propagates the decoder's own exception |
| SignedTx.TxidDependsOnFirstOutpointOnly | backend/caseStudy/myapp/utils.py:12 | two transactions whose first inputs spend outputs of the same transaction get the same identifier, whatever else differs |
| AddressRecord.FilterAddressFields | backend/caseStudy/myapp/utils.py:107 | keeps exactly the keys other than `txrefs` and `unconfirmed_txrefs`, with their values unchanged |
| AddressRecord.FilterIdempotent | backend/caseStudy/myapp/utils.py:107 | filtering twice is filtering once |
| AddressRecord.FilterKeepsPlainPayload | backend/caseStudy/myapp/utils.py:107 | a payload without transaction lists is left as it is |
| AddressViews.FetchNewData | backend/caseStudy/myapp/utils.py:105-108 | fails exactly when the provider's details call fails, with its exception; otherwise it is the provider's payload minus the transaction lists |
| AddressRecord.FieldNamed | backend/caseStudy/myapp/models.py:5-17 | maps a payload key to the model field with that column name, or reports that no field has it |
| AddressRecord.ValidByFields | backend/caseStudy/myapp/models.py:6-13 | a snapshot is valid exactly when every unsigned column holds a non-negative value |
| AddressRecord.NegativeBalancesAllowed | backend/caseStudy/myapp/models.py:8-10 | a snapshot with negative balances is valid |
| AddressRecord.OverwriteKeepsValid | backend/caseStudy/myapp/models.py:6-13 | overwriting a valid snapshot with storable values keeps it valid |
| AddressRecord.Overwrite | backend/caseStudy/myapp/views.py:134-135 | every field the payload names takes the payload's value; every other field keeps its value |
| AddressRecord.Str | backend/caseStudy/myapp/models.py:22-23 | the display string of a snapshot is its address |
| AddressRecord.StrIdentifiesRecord | backend/caseStudy/myapp/models.py:22-23 | in a store without duplicate addresses, two snapshots have the same display string exactly when they are the same snapshot |
| AddressRecord.IndexOf | backend/caseStudy/myapp/views.py:112 | the first index whose address matches, or `None` when no snapshot has that address |
| AddressRecord.Lookup | backend/caseStudy/myapp/views.py:129 | returns the index of the only snapshot with that address; `DoesNotExist` exactly when none has it; `MultipleObjectsReturned` exactly when two or more have it |
| AddressRecord.LookupSingle | backend/caseStudy/myapp/views.py:129 | when exactly one snapshot has the address, the lookup returns its position |
| AddressRecord.LookupUnique | backend/caseStudy/myapp/views.py:129 | in a store without duplicates the lookup never finds several rows |
| AddressRecord.FromFields | backend/caseStudy/myapp/views.py:116 | an unknown key raises `TypeError`; otherwise the only failure is the database's; a stored row is valid, the payload named every integer column, and `created_at` is the insert time |
| AddressRecord.CreatedAtIgnoredOnInsert | backend/caseStudy/myapp/models.py:17 | `auto_now_add`: whatever value, of whatever kind, the payload gives `created_at`, the insert's outcome is the same |
| AddressRecord.FromFieldsSucceeds | backend/caseStudy/myapp/views.py:116 | a payload of field keys that names every integer column and holds storable values in every column but `created_at` is always inserted |
| AddressRecord.FromFieldsFields | backend/caseStudy/myapp/models.py:5-17 | the new row holds the payload's value in each field it names and the empty string in an unnamed text field; `created_at` is `now` whatever the payload says |
| AddressRecord.IsStale | backend/caseStudy/myapp/views.py:131 | stale when strictly more than thirty minutes, in microseconds, separate `created_at` from now |
| AddressRecord.StalenessBoundary | backend/caseStudy/myapp/views.py:131 | a snapshot is stale only strictly after thirty minutes: exactly thirty minutes is fresh and one microsecond more is stale |
| AddressRecord.Refresh | backend/caseStudy/myapp/views.py:132-136 | the only failure is the database's; a payload value of the wrong kind fails; a saved snapshot is valid |
| AddressRecord.RefreshSucceeds | backend/caseStudy/myapp/views.py:132-136 | a valid snapshot with a storable payload always saves |
| AddressRecord.RefreshFields | backend/caseStudy/myapp/views.py:133-135 | after a refresh, every field the payload names has the payload's value, every other field keeps its old value, and `created_at` is `now` unless the payload names it |
| AddressRecord.RefreshedPayloadStorable | backend/caseStudy/myapp/views.py:136 | if a refresh saved, every payload value was storable |
| AddressRecord.RefreshFromFullPayload | backend/caseStudy/myapp/views.py:134-135 | a payload naming every field leaves nothing of the old snapshot |
| AddressRecord.RefreshIdempotent | backend/caseStudy/myapp/views.py:132-136 | refreshing again from the same payload at the same time changes nothing |
| Views.Satoshis | backend/caseStudy/myapp/utils.py:47 | truncation toward zero of the amount times 100000000: for a non-negative amount the result is at most that product and within one below it; for a negative amount it is at least that product and within one above it |
| Views.SatoshisExamples | backend/caseStudy/myapp/utils.py:47 | one, half and minus one bitcoin convert exactly; a billionth of a bitcoin truncates to zero |
| Views.CheckField | backend/caseStudy/myapp/views.py:28 | a missing address field raises `TypeError` without any call; a present one that fails the pattern is false without a call; a present one that passes gets exactly the provider's answer or exception, after one address check |
| Views.Funds | backend/caseStudy/myapp/utils.py:81-82 | `get_source_balance` plus `get_fee`, as the balance gate adds them: the balance plus the fee, when the details call returns an integer `final_balance` and the fee call returns; nothing otherwise |
| Views.GenerateUnsignedTransaction | backend/caseStudy/myapp/utils.py:45-54 | always lists the source's outputs first; a failed listing propagates; when no running total reaches the amount in satoshis it raises `AttributeError` after that one call; a draft spends the first crossing output, carries its parent's raw transaction, the recipient unchanged and the amount in satoshis, after exactly the listing and the fetch; when some output crosses, its parent is fetched, a failed fetch propagates its exception and a successful one gives that draft |
| Views.GetTransactionData | backend/caseStudy/myapp/views.py:19-40 | "Invalid amount" exactly for zero or non-numeric amounts, with no call; "Invalid input type" exactly when the recipient, or else the source, fails the check, with only address checks made; "Insufficient balance" exactly when both pass and balance plus fee is below the amount in bitcoin, with no output listed; a draft exactly when all gates pass and the draft is built, and it is the generated tuple; an exception from the recipient check, or from the source check after the recipient passed, escapes as it is after exactly the checks made; once both pass the rest is the balance gate |
| Views.CheckFunds | backend/caseStudy/myapp/views.py:31-40 | "Insufficient balance" exactly when balance plus fee is below the amount; a draft exactly when it is not and the draft is built; a failed details call, a missing `final_balance` (`KeyError`), a failed fee call, a non-integer balance (`TypeError`) and a failed draft each escape with that exception, after exactly the calls made up to it |
| Views.UnitMismatchCrashes | backend/caseStudy/myapp/views.py:35-38 | one satoshi of balance passes the gate for half a bitcoin, and the view then crashes with `AttributeError` |
| Views.NegativeAmountDrafts | backend/caseStudy/myapp/views.py:24-40 | an amount of minus one bitcoin passes every gate and drafts a spend of minus 100000000 satoshis |
| Views.BroadcastSignedTransaction | backend/caseStudy/myapp/views.py:43-68 | a missing or empty transaction is reported first, with no call; a decoding exception the check lets through escapes; an invalid transaction is reported without a push; the push happens exactly when the check passes; success exactly when the push returns true and the identifier can be taken, carrying that identifier; every other outcome after the push is the broadcast error |
| Views.GetConfirmations | backend/caseStudy/myapp/views.py:71-91 | a missing or empty hash and a malformed one are reported without a call; the count is returned exactly when the lookup returns; the rate limit and every other lookup failure have their own messages; nothing escapes |
| AddressViews.CreateAddress | backend/caseStudy/myapp/views.py:101-117 | "Invalid address" exactly when the check answers false or raises `AssertionError`; a validated address is always fetched, and a failed fetch escapes with its exception; any other exception from the check escapes unchanged, with the store untouched, after the check alone; after a successful fetch the outcome is exactly that of the lookup and insertion (`Insert`), so a refused payload or several matching rows escape; "already exists" exactly when the lookup finds the row; the store changes only by appending the row built from the payload, and only when no row had the address |
| AddressViews.CreateAppendsRecord | backend/caseStudy/myapp/views.py:110-117 | a validated address that no row has, with a payload `create` accepts, is added: the row built from the payload is appended after the check and the details call |
| AddressViews.Insert | backend/caseStudy/myapp/views.py:111-117 | "already exists" exactly when the lookup finds a row; added exactly when no row has the address and `create` accepts the payload, and then the new row is appended; a refused payload or several matching rows escape as exceptions with the store unchanged |
| AddressViews.CreateKeepsValid | backend/caseStudy/myapp/views.py:116 | creating keeps every stored snapshot valid |
| AddressViews.InsertKeepsValid | backend/caseStudy/myapp/views.py:111-116 | an insertion keeps every stored snapshot valid |
| AddressViews.CreateKeepsUnique | backend/caseStudy/myapp/views.py:111-116 | when the provider echoes the address, creating never stores two snapshots of one address |
| AddressViews.CreateDuplicatesWithoutEcho | backend/caseStudy/myapp/views.py:110-116 | when the payload names an already-stored address other than the requested one, a second snapshot of that address is added |
| AddressViews.Rejects | backend/caseStudy/myapp/utils.py:20-25 | the address check turns an address down when the provider answers false or raises `AssertionError`, which `validate_address` re-raises |
| AddressViews.Handled | backend/caseStudy/myapp/views.py:140-145 | `DoesNotExist` becomes the 404 "Address not found", `AssertionError` the 404 "Address not valid"; any other exception escapes unchanged |
| AddressViews.GetAddressDetails | backend/caseStudy/myapp/views.py:120-145 | "Invalid address" exactly when the check answers false or raises `AssertionError`; any other exception from the check, and a failed lookup (missing or duplicated row), go to the outer handler after the check alone; a fresh snapshot is served as stored; a stale one is refreshed; only the snapshot with the requested address is ever replaced, and only when it was stale; the payload is fetched only for a stale snapshot; validity is preserved |
| AddressViews.RefreshAt | backend/caseStudy/myapp/views.py:131-145 | a failed fetch or a failed save goes to the outer handler with the store unchanged; a successful save replaces the snapshot by its refreshed form, which is what is served |
| AddressViews.FreshSnapshotServed | backend/caseStudy/myapp/views.py:129-139 | a snapshot at most thirty minutes old is served as stored, after the address check alone |
| AddressViews.StaleSnapshotRefreshed | backend/caseStudy/myapp/views.py:131-139 | an older valid snapshot with a storable payload is refreshed, replaced in place and served, after the check and one details call |
| AddressViews.StaleAssertionNotValid | backend/caseStudy/myapp/views.py:132-145 | an `AssertionError` while fetching the payload is a 404 "Address not valid", and the store is unchanged |
| AddressViews.DetailsKeepsUnique | backend/caseStudy/myapp/views.py:132-136 | when the provider echoes the address, a refresh keeps stored addresses distinct |
| AddressViews.RefreshAtKeepsUnique | backend/caseStudy/myapp/views.py:132-136 | refreshing a snapshot from a payload that echoes its address keeps the stored addresses distinct |
| Text.Strip | frontend/my-react-app/src/transactionComponent.jsx:159 | the result neither starts nor ends with whitespace and sits in the input with only whitespace around it |
| Text.StripExact | frontend/my-react-app/src/transactionComponent.jsx:159 | any infix with only whitespace around it and none at its ends is the stripped form |
| Text.Split | frontend/my-react-app/src/transactionComponent.jsx:157 | at least one segment, even for the empty string |
| Text.SplitSegmentsFree | frontend/my-react-app/src/transactionComponent.jsx:157 | no segment contains the separator |
| Text.JoinSplit | frontend/my-react-app/src/transactionComponent.jsx:157 | joining the segments with the separator restores the string |
| Text.SplitJoin | frontend/my-react-app/src/transactionComponent.jsx:157 | splitting a join of separator-free segments restores the segments |
| Text.SplitFree | frontend/my-react-app/src/transactionComponent.jsx:157 | a string without the separator is one segment |
| Text.SplitCons | frontend/my-react-app/src/transactionComponent.jsx:157 | a leading separator starts a new empty segment; any other character joins the first segment |
| Text.SplitAppend | frontend/my-react-app/src/transactionComponent.jsx:157 | the segments of `a;b` are those of `a` followed by those of `b` |
| Cookie.FirstMatch | frontend/my-react-app/src/transactionComponent.jsx:158-166 | the loop over the segments: the value after `name=` of the first segment whose trimmed text starts with it |
| Cookie.FindCookie | frontend/my-react-app/src/transactionComponent.jsx:155-166 | `null` exactly when the cookie string is empty or none of its `;` segments, trimmed, starts with `name=`; otherwise the text after `name=` in the first such segment |
| Cookie.GetCookie | frontend/my-react-app/src/transactionComponent.jsx:154-167 | `null` exactly when the cookie string is empty or no segment matches; otherwise the decoded text after `name=` in the first matching segment |
| Cookie.FirstMatchIsFirst | frontend/my-react-app/src/transactionComponent.jsx:158-163 | when segment `i` matches and no earlier one does, the loop returns the text after `name=` in segment `i` |
| Cookie.FirstMatchNone | frontend/my-react-app/src/transactionComponent.jsx:158-166 | nothing is found exactly when no segment matches |
| Cookie.EmptyGuardRedundant | frontend/my-react-app/src/transactionComponent.jsx:155-156 | the empty cookie string gives `null`, as it would without the guard |
| Cookie.FirstMatchAppend | frontend/my-react-app/src/transactionComponent.jsx:162 | segments after the first match are never looked at |
| Cookie.LaterDuplicatesIgnored | frontend/my-react-app/src/transactionComponent.jsx:157-163 | a later cookie of the same name never overrides an earlier one |
| Cookie.SingleCookie | frontend/my-react-app/src/transactionComponent.jsx:157-161 | a one-segment cookie string without surrounding whitespace matches exactly when it starts with `name=`, and then its value is the rest |
| Cookie.NameValueCookie | frontend/my-react-app/src/transactionComponent.jsx:157-161 | a lone `name=value` cookie, without `;` and not starting or ending in whitespace, gives exactly `value` |
| Cookie.MatchingCookie | frontend/my-react-app/src/transactionComponent.jsx:160-161 | `csrftoken=abc` gives `abc` for `csrftoken` |
| Cookie.LongerNameDoesNotMatch | frontend/my-react-app/src/transactionComponent.jsx:160 | `csrftoken2=x` does not match `csrftoken` |
| Cookie.ValueMayContainEquals | frontend/my-react-app/src/transactionComponent.jsx:161 | the value after the first `a=` of `a=b=c` is `b=c` |
| Cookie.EmptyValue | frontend/my-react-app/src/transactionComponent.jsx:161 | `a=` gives the empty value, not `null` |

## Left out

- Remote calls: blockcypher, bit's `NetworkAPI` and fee service, and the
  configuration lookup of the coin symbol are not executed. They are
  arbitrary reply functions of a `Provider`. The fee is one reply, not a
  call that could differ between requests.
- Transaction decoding: `bytes.fromhex`, `CTransaction.deserialize` and
  pybitcointools' `deserialize` are passed in as functions. Their byte
  formats are not modelled.
- Float parsing and rounding: `float(amount)` is modelled as an exact real,
  a `ValueError`, or a `TypeError`. Binary floating-point rounding of
  `amount * 100000000` is not modelled. Neither are NaN and infinities.
  Positive infinity exceeds every balance, so the view answers
  "Insufficient balance". NaN and negative infinity pass the balance gate
  (views.py:35). The unspent outputs are then listed, and `int()` at
  utils.py:47 raises: `ValueError` for NaN, `OverflowError` for negative
  infinity.
- Views.GetTransactionData: the balance is an integer, text or another
  JSON value. A floating-point or boolean balance, which Python would add
  to the fee (`True + fee` is `1 + fee`), is treated like a non-numeric
  value (`TypeError`). A request field that
  is present but neither text nor a number is treated like a missing field.
- Views.BroadcastSignedTransaction: a `signed_tx` that is not a string is
  not modelled. Neither is the printing.
- Views.GetConfirmations: a hash that is not a string (`len` of a number
  raises `TypeError`) is not modelled.
- TxHash: Unicode decimal digits, which `int()` also accepts, are not part of
  the hash grammar. Only ASCII hex digits are.
- AddressViews.CreateAddress: a missing `address` field is not modelled; the
  address is always a string.
- AddressViews.GetAddressDetails: the two clock readings of the view (the
  staleness test and the new `created_at`) are one `now`.
- Column widths and limits are not modelled. This covers `max_length=200`,
  the 64- and 32-bit integer column ranges, and URL validation of `tx_url`.
  The model keeps only the kind of each value and the sign of the unsigned
  columns.
- Django's coercion into integer columns is not modelled. This covers
  numeric strings, floats and JSON booleans, which Django stores as
  `int(True)` or `int(False)`. Any value that is not an integer is a
  database error here.
- AddressRecord.FieldNamed: Django's implicit primary key `id` (alias `pk`)
  is not a field of the model. `create(id=...)` is accepted by Django but
  answered `TypeError` here, and an `id` key in a refresh payload, which
  would re-target the saved row, is ignored. Blockcypher's address payload
  has no such key.
- AddressRecord.FromFields: a text, list or object value in an integer
  column is refused with `DatabaseError`. Django raises `ValueError` or
  `TypeError` from the field's value preparation instead. The exception
  kind differs, but the row is refused either way and the exception
  escapes the view either way. Blockcypher's payload holds integers in
  these columns.
- AddressRecord.Refresh: the same simplification applies to the save of a
  refresh. It fails with `DatabaseError` where Django would raise
  `ValueError` or `TypeError`. A payload `created_at` is also handled the
  reverse of Django's way. The model keeps timestamps as integers, so it
  saves an integer `created_at` and refuses a text one with
  `DatabaseError`. Django parses the value as a date and time on save. An
  ISO text is saved and the details are served. An integer raises
  `TypeError`, and non-ISO text fails validation. Blockcypher's payload
  has no `created_at`.
- The serializer output is the snapshot record itself. `get_addresses`
  (a plain list of all rows) is not modelled.
- `decodeURIComponent` is a parameter of `Cookie.GetCookie`. Its `URIError`
  on malformed escapes is not modelled.
- Concurrency (the get-then-create race in `create_address`), logging,
  HTTP method decorators and JSON body parsing are left out.
- The migration file and the frontend signing code are not part of this
  model.

=== FILE: address_format.dfy ===
/** Address checks of utils.py: the pattern test
    `^[123mn][a-km-zA-HJ-NP-Z1-9]{25,34}$` under Python's `re.match`, and
    its combination with the provider's verdict. */
module AddressFormat {
  import opened Outcomes
  import opened Provider

  /** The leading character class `[123mn]`. */
  predicate IsVersionChar(c: char) {
    c in {'1', '2', '3', 'm', 'n'}
  }

  /** The character class `[a-km-zA-HJ-NP-Z1-9]`: the base58 alphabet,
      which leaves out `0`, `O`, `I` and `l`. */
  predicate IsBase58Char(c: char) {
    || ('a' <= c <= 'k') || ('m' <= c <= 'z')
    || ('A' <= c <= 'H') || ('J' <= c <= 'N') || ('P' <= c <= 'Z')
    || ('1' <= c <= '9')
  }

  /** A version character followed by 25 to 34 base58 characters. */
  predicate IsAddressBody(s: string) {
    && 26 <= |s| <= 35
    && IsVersionChar(s[0])
    && forall i :: 1 <= i < |s| ==> IsBase58Char(s[i])
  }

  /** The strings the pattern matches: Python's `$` also matches just before
      a final newline, so an address body followed by one `\n` is accepted. */
  predicate MatchesAddressPattern(s: string) {
    IsAddressBody(s) || (|s| > 0 && s[|s| - 1] == '\n' && IsAddressBody(s[..|s| - 1]))
  }

  /** Length of the run of base58 characters starting at `i` (the greedy
      `{25,34}` repetition scans exactly this run). */
  function Base58Run(s: string, i: nat): (n: nat)
    requires i <= |s|
    ensures i + n <= |s|
    ensures forall j :: i <= j < i + n ==> IsBase58Char(s[j])
    ensures i + n == |s| || !IsBase58Char(s[i + n])
    decreases |s| - i
  {
    if i == |s| || !IsBase58Char(s[i]) then 0 else 1 + Base58Run(s, i + 1)
  }

  /** `is_valid_bitcoin_address_format`, as the regular-expression engine
      runs it: the version character, the greedy base58 run, which must be
      25 to 34 long, and then the end of the string or a final newline.
      Backtracking never helps, since a shorter run is followed by another
      base58 character. */
  function IsValidAddressFormat(s: string): (ok: bool)
    ensures ok <==> MatchesAddressPattern(s)
  {
    if |s| == 0 || !IsVersionChar(s[0]) then false
    else
      var n := Base58Run(s, 1);
      assert IsAddressBody(s) ==> 1 + n == |s|;
      assert |s| > 1 && s[|s| - 1] == '\n' && IsAddressBody(s[..|s| - 1]) ==> 2 + n == |s|;
      25 <= n <= 34 && (1 + n == |s| || (2 + n == |s| && s[|s| - 1] == '\n'))
  }

  /** An accepted string is 26 to 36 characters long and, after its first
      character, holds none of `0 O I l`. */
  lemma AcceptedAddressShape(s: string)
    requires IsValidAddressFormat(s)
    ensures 26 <= |s| <= 36
    ensures forall i :: 1 <= i < |s| ==> s[i] !in {'0', 'O', 'I', 'l'}
  {
  }

  /** A well-known mainnet address is accepted. */
  lemma AcceptsKnownAddress()
    ensures IsValidAddressFormat("1A1zP1eP5QGefi2DMPTfTL5SLmv7DivfNa")
  {
    assert IsAddressBody("1A1zP1eP5QGefi2DMPTfTL5SLmv7DivfNa");
  }

  /** Any address body followed by one newline is accepted. */
  lemma BodyWithNewline(s: string)
    requires IsAddressBody(s)
    ensures IsValidAddressFormat(s + "\n")
  {
    assert (s + "\n")[..|s|] == s;
  }

  /** The same address followed by one newline is accepted too. */
  lemma AcceptsTrailingNewline()
    ensures IsValidAddressFormat("1A1zP1eP5QGefi2DMPTfTL5SLmv7DivfNa\n")
  {
    var a := "1A1zP1eP5QGefi2DMPTfTL5SLmv7DivfNa";
    assert IsAddressBody(a);
    BodyWithNewline(a);
    assert a + "\n" == "1A1zP1eP5QGefi2DMPTfTL5SLmv7DivfNa\n";
  }

  /** "invalidAddress" is too short, and a `0` after the first character
      is refused. */
  lemma RejectsExamples()
    ensures !IsValidAddressFormat("invalidAddress")
    ensures !IsValidAddressFormat("1A1zP1eP5QGefi2DMPTfTL5SLmv7DivfN0")
  {
    var c := "1A1zP1eP5QGefi2DMPTfTL5SLmv7DivfN0";
    assert !IsBase58Char(c[33]);
  }

  /** The answer of `is_valid_bitcoin_address` together with the provider
      calls it made. */
  datatype Verdict = Verdict(reply: Reply<bool>, calls: seq<Call>)

  /** `is_valid_bitcoin_address`: the format test first and, only if it
      passes, the provider's address check, whose exceptions propagate. */
  function IsValidBitcoinAddress(address: string, p: Provider): (v: Verdict)
    ensures v.reply == Returned(true) <==>
              IsValidAddressFormat(address) && p.checkAddress(address) == Returned(true)
    ensures v.reply.Raised? <==>
              IsValidAddressFormat(address) && p.checkAddress(address).Raised?
    ensures v.reply.Raised? ==> v.reply.exc == p.checkAddress(address).exc
    ensures v.calls == (if IsValidAddressFormat(address) then [CheckAddress(address)] else [])
  {
    if !IsValidAddressFormat(address) then Verdict(Returned(false), [])
    else
      var calls := [CheckAddress(address)];
      match p.checkAddress(address)
      case Raised(e) => Verdict(Raised(e), calls)
      case Returned(b) => Verdict(Returned(b), calls)
  }
}

=== FILE: address_record.dfy ===
/** The `Address` snapshot of models.py, the payload filter of
    `fetch_new_data_for_address`, the thirty-minute staleness rule and the
    field-by-field refresh of `get_address_details`, and the ORM lookup by
    address string. */
module AddressRecord {
  import opened Outcomes

  /** A JSON value of the provider's address payload. `Other` stands for
      lists, objects, booleans and null. */
  datatype Value = Int(n: int) | Text(s: string) | Other

  /** One stored snapshot. Timestamps are microseconds since the epoch. */
  datatype Address = Address(
    address: string,
    totalReceived: int,
    totalSent: int,
    balance: int,
    unconfirmedBalance: int,
    finalBalance: int,
    nTx: int,
    unconfirmedNTx: int,
    finalNTx: int,
    txUrl: string,
    createdAt: int)

  /** The model's fields, each named by its column key. */
  datatype Field =
    | AddressField | TotalReceived | TotalSent | Balance | UnconfirmedBalance
    | FinalBalance | NTx | UnconfirmedNTx | FinalNTx | TxUrl | CreatedAt

  function Key(f: Field): string {
    match f
    case AddressField => "address"
    case TotalReceived => "total_received"
    case TotalSent => "total_sent"
    case Balance => "balance"
    case UnconfirmedBalance => "unconfirmed_balance"
    case FinalBalance => "final_balance"
    case NTx => "n_tx"
    case UnconfirmedNTx => "unconfirmed_n_tx"
    case FinalNTx => "final_n_tx"
    case TxUrl => "tx_url"
    case CreatedAt => "created_at"
  }

  /** The field a payload key names, if any. */
  function FieldNamed(key: string): (f: Option<Field>)
    ensures f.Some? ==> Key(f.value) == key
    ensures f.None? ==> forall g :: Key(g) != key
  {
    if key == "address" then Some(AddressField)
    else if key == "total_received" then Some(TotalReceived)
    else if key == "total_sent" then Some(TotalSent)
    else if key == "balance" then Some(Balance)
    else if key == "unconfirmed_balance" then Some(UnconfirmedBalance)
    else if key == "final_balance" then Some(FinalBalance)
    else if key == "n_tx" then Some(NTx)
    else if key == "unconfirmed_n_tx" then Some(UnconfirmedNTx)
    else if key == "final_n_tx" then Some(FinalNTx)
    else if key == "tx_url" then Some(TxUrl)
    else if key == "created_at" then Some(CreatedAt)
    else None
  }

  /** `address` and `tx_url` hold text; every other field holds an integer. */
  predicate IsTextField(f: Field) {
    f == AddressField || f == TxUrl
  }

  /** `v` has the kind the field stores. */
  predicate Fits(f: Field, v: Value) {
    if IsTextField(f) then v.Text? else v.Int?
  }

  /** The unsigned columns: `total_received`, `total_sent`
      (PositiveBigIntegerField) and the three transaction counts
      (PositiveIntegerField). The three balances are signed. */
  predicate IsUnsignedField(f: Field) {
    f in {TotalReceived, TotalSent, NTx, UnconfirmedNTx, FinalNTx}
  }

  /** The database accepts `v` in field `f`: right kind, and not negative
      in an unsigned column. */
  predicate Storable(f: Field, v: Value) {
    Fits(f, v) && (IsUnsignedField(f) ==> v.n >= 0)
  }

  function Get(rec: Address, f: Field): (v: Value)
    ensures Fits(f, v)
  {
    match f
    case AddressField => Text(rec.address)
    case TotalReceived => Int(rec.totalReceived)
    case TotalSent => Int(rec.totalSent)
    case Balance => Int(rec.balance)
    case UnconfirmedBalance => Int(rec.unconfirmedBalance)
    case FinalBalance => Int(rec.finalBalance)
    case NTx => Int(rec.nTx)
    case UnconfirmedNTx => Int(rec.unconfirmedNTx)
    case FinalNTx => Int(rec.finalNTx)
    case TxUrl => Text(rec.txUrl)
    case CreatedAt => Int(rec.createdAt)
  }

  /** The snapshot whose every field `f` holds `g(f)`. */
  function FromGetter(g: Field -> Value): (r: Address)
    requires forall f :: Fits(f, g(f))
    ensures forall f :: Get(r, f) == g(f)
  {
    assert Fits(TotalReceived, g(TotalReceived)) && Fits(TotalSent, g(TotalSent));
    assert Fits(Balance, g(Balance)) && Fits(UnconfirmedBalance, g(UnconfirmedBalance));
    assert Fits(FinalBalance, g(FinalBalance)) && Fits(NTx, g(NTx));
    assert Fits(UnconfirmedNTx, g(UnconfirmedNTx)) && Fits(FinalNTx, g(FinalNTx));
    assert Fits(CreatedAt, g(CreatedAt));
    assert Fits(AddressField, g(AddressField)) && Fits(TxUrl, g(TxUrl));
    var r := Address(g(AddressField).s, g(TotalReceived).n, g(TotalSent).n, g(Balance).n,
      g(UnconfirmedBalance).n, g(FinalBalance).n, g(NTx).n, g(UnconfirmedNTx).n,
      g(FinalNTx).n, g(TxUrl).s, g(CreatedAt).n);
    r
  }

  /** The sign invariants of models.py: received and sent totals and the
      three transaction counts are never negative; the balances may be. */
  predicate Valid(rec: Address) {
    && rec.totalReceived >= 0 && rec.totalSent >= 0
    && rec.nTx >= 0 && rec.unconfirmedNTx >= 0 && rec.finalNTx >= 0
  }

  /** The sign invariants, stated field by field. */
  lemma ValidByFields(rec: Address)
    ensures Valid(rec) <==> forall f :: IsUnsignedField(f) ==> Get(rec, f).n >= 0
  {
    assert IsUnsignedField(TotalReceived) && IsUnsignedField(TotalSent);
    assert IsUnsignedField(NTx) && IsUnsignedField(UnconfirmedNTx) && IsUnsignedField(FinalNTx);
  }

  /** Overwriting a valid snapshot with storable values keeps it valid. */
  lemma OverwriteKeepsValid(rec: Address, data: map<string, Value>)
    requires Conforms(data)
    ensures StorableData(data) && Valid(rec) ==> Valid(Overwrite(rec, data))
  {
    if StorableData(data) && Valid(rec) {
      var r := Overwrite(rec, data);
      ValidByFields(rec);
      forall f | IsUnsignedField(f)
        ensures Get(r, f).n >= 0
      {
        if Key(f) in data {
          assert Storable(f, data[Key(f)]);
        }
      }
      ValidByFields(r);
    }
  }

  /** Every model field the payload names carries a value of that field's kind. */
  predicate Conforms(data: map<string, Value>) {
    forall f :: Key(f) in data ==> Fits(f, data[Key(f)])
  }

  /** Every model field the payload names carries a value the database stores. */
  predicate StorableData(data: map<string, Value>) {
    forall f :: Key(f) in data ==> Storable(f, data[Key(f)])
  }

  /** `setattr` for every payload key that names a field; keys that name
      no field only add a plain attribute, which is not saved. */
  function Overwrite(rec: Address, data: map<string, Value>): (r: Address)
    requires Conforms(data)
    ensures forall f :: Key(f) in data ==> Get(r, f) == data[Key(f)]
    ensures forall f :: Key(f) !in data ==> Get(r, f) == Get(rec, f)
  {
    FromGetter(f => if Key(f) in data then data[Key(f)] else Get(rec, f))
  }

  /** The keys `fetch_new_data_for_address` drops from the provider's payload. */
  const TxRefKeys: set<string> := {"txrefs", "unconfirmed_txrefs"}

  /** `fetch_new_data_for_address`'s filter: every key except the two
      transaction-reference lists, values unchanged. */
  function FilterAddressFields(details: map<string, Value>): (fields: map<string, Value>)
    ensures fields.Keys == details.Keys - TxRefKeys
    ensures forall k :: k in fields ==> fields[k] == details[k]
  {
    map k | k in details && k !in TxRefKeys :: details[k]
  }

  /** A payload without transaction lists passes the filter unchanged. */
  lemma FilterKeepsPlainPayload(details: map<string, Value>)
    requires "txrefs" !in details && "unconfirmed_txrefs" !in details
    ensures FilterAddressFields(details) == details
  {
  }

  /** Filtering a filtered payload changes nothing. */
  lemma FilterIdempotent(details: map<string, Value>)
    ensures FilterAddressFields(FilterAddressFields(details)) == FilterAddressFields(details)
  {
  }

  /** The refresh of `get_address_details` followed by `save()`:
      `created_at` is set to `now`, then every payload key naming a field
      overwrites it (a `created_at` in the payload would win over `now`).
      The save fails if a value has the wrong kind or a negative value lands
      in an unsigned column; it succeeds whenever the old snapshot is valid
      and the payload storable. */
  function Refresh(rec: Address, data: map<string, Value>, now: int): (r: Reply<Address>)
    ensures r.Raised? ==> r.exc == DatabaseError
    ensures !Conforms(data) ==> r.Raised?
    ensures r.Returned? ==> Valid(r.value)
  {
    if !Conforms(data) then Raised(DatabaseError)
    else
      var updated := Overwrite(rec.(createdAt := now), data);
      if Valid(updated) then Returned(updated) else Raised(DatabaseError)
  }

  /** Refreshing a valid snapshot from a storable payload always saves. */
  lemma RefreshSucceeds(rec: Address, data: map<string, Value>, now: int)
    requires Valid(rec) && StorableData(data)
    ensures Refresh(rec, data, now).Returned?
  {
    OverwriteKeepsValid(rec.(createdAt := now), data);
  }

  /** What a successful refresh stores: every field the payload names takes
      the payload's value, every other field but `created_at` keeps its old
      value, and `created_at` is `now` unless the payload names it. */
  lemma RefreshFields(rec: Address, data: map<string, Value>, now: int, f: Field)
    requires Refresh(rec, data, now).Returned?
    ensures Key(f) in data ==> Get(Refresh(rec, data, now).value, f) == data[Key(f)]
    ensures Key(f) !in data && f != CreatedAt ==> Get(Refresh(rec, data, now).value, f) == Get(rec, f)
    ensures Key(f) !in data && f == CreatedAt ==> Refresh(rec, data, now).value.createdAt == now
  {
  }

  /** A payload a refresh stored was storable. */
  lemma RefreshedPayloadStorable(rec: Address, data: map<string, Value>, now: int)
    requires Refresh(rec, data, now).Returned?
    ensures StorableData(data)
  {
    var r := Refresh(rec, data, now).value;
    ValidByFields(r);
    forall f | Key(f) in data
      ensures Storable(f, data[Key(f)])
    {
      RefreshFields(rec, data, now, f);
    }
  }

  /** Two snapshots that agree on every field are the same snapshot. */
  lemma SameFields(a: Address, b: Address)
    requires forall f :: Get(a, f) == Get(b, f)
    ensures a == b
  {
    assert Get(a, AddressField) == Get(b, AddressField) && Get(a, TxUrl) == Get(b, TxUrl);
    assert Get(a, TotalReceived) == Get(b, TotalReceived) && Get(a, TotalSent) == Get(b, TotalSent);
    assert Get(a, Balance) == Get(b, Balance) && Get(a, UnconfirmedBalance) == Get(b, UnconfirmedBalance);
    assert Get(a, FinalBalance) == Get(b, FinalBalance) && Get(a, NTx) == Get(b, NTx);
    assert Get(a, UnconfirmedNTx) == Get(b, UnconfirmedNTx) && Get(a, FinalNTx) == Get(b, FinalNTx);
    assert Get(a, CreatedAt) == Get(b, CreatedAt);
  }

  /** A refresh whose payload names every field leaves nothing of the old
      snapshot but what the payload says: two snapshots refreshed from it
      agree. */
  lemma RefreshFromFullPayload(a: Address, b: Address, data: map<string, Value>, now: int)
    requires forall f :: Key(f) in data
    requires Refresh(a, data, now).Returned? && Refresh(b, data, now).Returned?
    ensures Refresh(a, data, now) == Refresh(b, data, now)
  {
    forall f
      ensures Get(Refresh(a, data, now).value, f) == Get(Refresh(b, data, now).value, f)
    {
      RefreshFields(a, data, now, f);
      RefreshFields(b, data, now, f);
    }
    SameFields(Refresh(a, data, now).value, Refresh(b, data, now).value);
  }

  /** Refreshing twice from the same payload at the same time is the same as
      refreshing once. */
  lemma RefreshIdempotent(rec: Address, data: map<string, Value>, now: int)
    requires Refresh(rec, data, now).Returned?
    ensures Refresh(Refresh(rec, data, now).value, data, now) == Refresh(rec, data, now)
  {
    var once := Refresh(rec, data, now).value;
    var again := Overwrite(once.(createdAt := now), data);
    forall f
      ensures Get(again, f) == Get(once, f)
    {
      RefreshAgainField(rec, data, now, f);
    }
    SameFields(again, once);
  }

  /** One field of a second refresh equals that field after the first. */
  lemma RefreshAgainField(rec: Address, data: map<string, Value>, now: int, f: Field)
    requires Refresh(rec, data, now).Returned?
    ensures Conforms(data)
    ensures var once := Refresh(rec, data, now).value;
      Get(Overwrite(once.(createdAt := now), data), f) == Get(once, f)
  {
    var once := Refresh(rec, data, now).value;
    RefreshFields(rec, data, now, f);
    if Key(f) !in data {
      assert Get(Overwrite(once.(createdAt := now), data), f) == Get(once.(createdAt := now), f);
    }
  }

  /** Every payload key names a model field. */
  predicate OnlyFieldKeys(data: map<string, Value>) {
    forall k :: k in data ==> FieldNamed(k).Some?
  }

  /** The integer columns other than `created_at` have no default, so a
      payload without one of them cannot be inserted. */
  predicate HasRequiredFields(data: map<string, Value>) {
    forall f :: !IsTextField(f) && f != CreatedAt ==> Key(f) in data
  }

  /** Every model field the payload names, except `created_at`, carries a
      value the database stores. On insert `auto_now_add` replaces whatever
      the payload gives `created_at` with the current time, so that value is
      never checked. */
  predicate InsertableData(data: map<string, Value>) {
    forall f :: f != CreatedAt && Key(f) in data ==> Storable(f, data[Key(f)])
  }

  /** `Address.objects.create(**fields)`: an unknown keyword argument raises
      `TypeError`; a missing integer column, a value of the wrong kind or a
      negative unsigned value is refused by the database; otherwise the new
      snapshot is stored, and it satisfies the sign invariants. A payload
      `created_at` is dropped in favour of `now`. */
  function FromFields(data: map<string, Value>, now: int): (r: Reply<Address>)
    ensures !OnlyFieldKeys(data) ==> r == Raised(TypeError)
    ensures OnlyFieldKeys(data) && r.Raised? ==> r.exc == DatabaseError
    ensures r.Raised? ==> r.exc in {TypeError, DatabaseError}
    ensures r.Returned? ==> HasRequiredFields(data)
    ensures r.Returned? ==> Valid(r.value)
    ensures r.Returned? ==> r.value.createdAt == now
  {
    if !OnlyFieldKeys(data) then Raised(TypeError)
    else if !HasRequiredFields(data) || !InsertableData(data) then Raised(DatabaseError)
    else
      var body := WithoutCreatedAt(data);
      var blank := Address("", 0, 0, 0, 0, 0, 0, 0, 0, "", now);
      var filled := Overwrite(blank, body);
      OverwriteKeepsValid(blank, body);
      assert Valid(filled);
      Returned(filled.(createdAt := now))
  }

  /** The payload without its `created_at` key: what an insert stores. */
  function WithoutCreatedAt(data: map<string, Value>): (body: map<string, Value>)
    requires InsertableData(data)
    ensures Conforms(body) && StorableData(body)
    ensures forall f :: f != CreatedAt ==> (Key(f) in body <==> Key(f) in data)
    ensures forall f :: f != CreatedAt && Key(f) in data ==> body[Key(f)] == data[Key(f)]
    ensures Key(CreatedAt) !in body
  {
    data - {Key(CreatedAt)}
  }

  /** A payload of field keys that names every integer column and holds
      storable values is always inserted. */
  lemma FromFieldsSucceeds(data: map<string, Value>, now: int)
    requires OnlyFieldKeys(data) && HasRequiredFields(data) && InsertableData(data)
    ensures FromFields(data, now).Returned?
  {
  }

  /** The payload's `created_at`, whatever its kind, does not affect the
      insert. */
  lemma {:induction false} CreatedAtIgnoredOnInsert(data: map<string, Value>, v: Value, now: int)
    ensures FromFields(data[Key(CreatedAt) := v], now) == FromFields(data, now)
  {
    var k := Key(CreatedAt);
    var data' := data[k := v];
    assert FieldNamed(k) == Some(CreatedAt);
    assert forall f :: f != CreatedAt ==> Key(f) != k;
    assert OnlyFieldKeys(data') <==> OnlyFieldKeys(data);
    assert HasRequiredFields(data') <==> HasRequiredFields(data);
    assert InsertableData(data') <==> InsertableData(data);
    if OnlyFieldKeys(data) && HasRequiredFields(data) && InsertableData(data) {
      assert WithoutCreatedAt(data') == WithoutCreatedAt(data);
    }
  }

  /** What a created snapshot holds: the payload's value in every field it
      names, the empty string in a text field it leaves out, and `now` as
      `created_at` whatever the payload says (`auto_now_add`). */
  lemma FromFieldsFields(data: map<string, Value>, now: int, f: Field)
    requires FromFields(data, now).Returned?
    ensures Key(f) in data && f != CreatedAt ==> Get(FromFields(data, now).value, f) == data[Key(f)]
    ensures Key(f) !in data && IsTextField(f) ==> Get(FromFields(data, now).value, f) == Text("")
    ensures FromFields(data, now).value.createdAt == now
  {
  }

  /** Signed balances may be negative in a valid snapshot. */
  lemma NegativeBalancesAllowed()
    ensures Valid(Address("mxVFsFW5N4mu1HPkxPttorvocvzeZ7KZyk", 0, 5, -5, -1, -6, 1, 0, 1, "", 0))
  {
  }

  /** Thirty minutes, in microseconds. */
  const StaleAfter: int := 30 * 60 * 1000000

  /** A snapshot is stale when strictly more than thirty minutes have
      passed since its `created_at`. */
  predicate IsStale(createdAt: int, now: int) {
    now - createdAt > StaleAfter
  }

  /** Exactly thirty minutes is not yet stale; 29m59s is fresh and 30m01s
      stale; one microsecond past thirty minutes is stale. */
  lemma StalenessBoundary(t: int)
    ensures !IsStale(t, t + StaleAfter)
    ensures IsStale(t, t + StaleAfter + 1)
    ensures !IsStale(t, t + (29 * 60 + 59) * 1000000)
    ensures IsStale(t, t + (30 * 60 + 1) * 1000000)
  {
  }

  /** `Address.__str__`. */
  function Str(rec: Address): string {
    rec.address
  }

  /** The stored snapshots, in table order. */
  type Store = seq<Address>

  /** No two snapshots share an address string. */
  predicate Unique(store: Store) {
    forall i, j :: 0 <= i < j < |store| ==> store[i].address != store[j].address
  }

  /** In a store without duplicates, a snapshot's display string identifies it. */
  lemma StrIdentifiesRecord(store: Store, i: nat, j: nat)
    requires Unique(store) && i < |store| && j < |store|
    ensures Str(store[i]) == Str(store[j]) <==> i == j
  {
    if i < j {
      assert store[i].address != store[j].address;
    } else if j < i {
      assert store[j].address != store[i].address;
    }
  }

  /** Position of the first snapshot with the given address string. */
  function IndexOf(store: Store, address: string): (r: Option<nat>)
    ensures r.Some? ==> r.value < |store| && store[r.value].address == address
    ensures r.Some? ==> forall j :: 0 <= j < r.value ==> store[j].address != address
    ensures r.None? ==> forall j :: 0 <= j < |store| ==> store[j].address != address
  {
    if |store| == 0 then None
    else if store[0].address == address then Some(0)
    else match IndexOf(store[1..], address)
      case None => None
      case Some(i) => Some(i + 1)
  }

  /** At least two stored snapshots carry this address. */
  predicate MatchesTwice(store: Store, address: string) {
    exists i, j :: 0 <= i < j < |store| && store[i].address == address && store[j].address == address
  }

  /** `Address.objects.get(address=...)`: the position of the only matching
      snapshot, `DoesNotExist` when none matches, `MultipleObjectsReturned`
      when several do. */
  function Lookup(store: Store, address: string): (r: Reply<nat>)
    ensures r.Returned? ==> r.value < |store| && store[r.value].address == address
    ensures r.Returned? ==> forall j :: 0 <= j < |store| && j != r.value ==> store[j].address != address
    ensures r == Raised(DoesNotExist) <==> forall j :: 0 <= j < |store| ==> store[j].address != address
    ensures r.Raised? ==> r.exc in {DoesNotExist, MultipleObjectsReturned}
    ensures r == Raised(MultipleObjectsReturned) <==> MatchesTwice(store, address)
  {
    match IndexOf(store, address)
    case None => Raised(DoesNotExist)
    case Some(i) =>
      match IndexOf(store[i + 1..], address)
      case Some(k) =>
        assert store[i + 1 + k] == store[i + 1..][k];
        assert store[i].address == address && store[i + 1 + k].address == address;
        Raised(MultipleObjectsReturned)
      case None =>
        assert forall j :: i < j < |store| ==> store[j] == store[i + 1..][j - i - 1];
        Returned(i)
  }

  /** Exactly one matching snapshot is found, at its position. */
  lemma LookupSingle(store: Store, address: string, i: nat)
    requires i < |store| && store[i].address == address
    requires forall j :: 0 <= j < |store| && j != i ==> store[j].address != address
    ensures Lookup(store, address) == Returned(i)
  {
  }

  /** In a store without duplicates the lookup never finds several rows. */
  lemma LookupUnique(store: Store, address: string)
    requires Unique(store)
    ensures Lookup(store, address) != Raised(MultipleObjectsReturned)
  {
    match IndexOf(store, address)
    case None =>
    case Some(i) =>
      match IndexOf(store[i + 1..], address)
      case None =>
      case Some(k) =>
        assert false;
  }
}

=== FILE: address_views.dfy ===
/** The views of views.py that keep address snapshots: `create_address`
    registers an address with the provider's current figures, and
    `get_address_details` serves a snapshot, refreshing it first when it is
    more than thirty minutes old. */
module AddressViews {
  import opened Outcomes
  import opened AddressRecord
  import opened Provider

  const InvalidAddress := "Invalid address"
  const AlreadyExists := "Address already exists!"
  const AddressNotFound := "Address not found"
  const AddressNotValid := "Address not valid"

  /** A response of the address views. */
  datatype Answer =
    | Rejected(message: string)  // `{"success": False, "message": ...}`
    | Added                      // `{"success": True, ...}`
    | Details(record: Address)   // the serialized snapshot
    | NotFound(error: string)    // `{"error": ...}` with status 404
    | Uncaught(exc: Exception)   // an exception escaping the view

  /** A response, the snapshots after the request, and the remote calls made. */
  datatype StoreExchange = StoreExchange(answer: Answer, store: Store, calls: seq<Call>)

  /** `validate_address` turns the check down: it answers `False` or raises
      `AssertionError` (which `validate_address` re-raises as such). */
  predicate Rejects(p: Provider, address: string) {
    p.checkAddress(address) == Returned(false) || p.checkAddress(address) == Raised(AssertionError)
  }

  /** `fetch_new_data_for_address`: the provider's payload without its
      transaction lists; a failure of the lookup propagates. */
  function FetchNewData(address: string, p: Provider): (r: Reply<map<string, Value>>)
    ensures r.Raised? <==> p.details(address).Raised?
    ensures r.Raised? ==> r.exc == p.details(address).exc
    ensures r.Returned? ==> r.value.Keys == p.details(address).value.Keys - TxRefKeys
    ensures r.Returned? ==> forall k :: k in r.value ==> r.value[k] == p.details(address).value[k]
  {
    match p.details(address)
    case Raised(e) => Raised(e)
    case Returned(details) => Returned(FilterAddressFields(details))
  }

  /** The provider's payload for `address` names that same address. The
      uniqueness of stored addresses rests on it: the lookup uses the
      requested string, the stored row the payload's. */
  predicate Echoes(p: Provider, address: string) {
    p.details(address).Returned? ==>
      "address" in p.details(address).value && p.details(address).value["address"] == Text(address)
  }

  /** No stored snapshot has this address. */
  predicate Absent(store: Store, address: string) {
    forall j :: 0 <= j < |store| ==> store[j].address != address
  }

  predicate AllValid(store: Store) {
    forall j :: 0 <= j < |store| ==> Valid(store[j])
  }

  /** `create_address`. The address is validated, then the payload is
      fetched (even for an address already stored), then the store is
      searched by the requested string, and only when nothing matches is a
      new row inserted from the payload. */
  function CreateAddress(store: Store, address: string, p: Provider, now: int): (x: StoreExchange)
    ensures x.answer == Rejected(InvalidAddress) <==> Rejects(p, address)
    ensures Rejects(p, address) ==> x.calls == [CheckAddress(address)]
    ensures p.checkAddress(address) == Returned(true) ==> x.calls == [CheckAddress(address), AddressDetails(address)]
    ensures x.answer == Rejected(AlreadyExists) <==>
      p.checkAddress(address) == Returned(true) && p.details(address).Returned? && Lookup(store, address).Returned?
    ensures x.store != store ==> x.answer == Added
    ensures x.answer == Added ==>
      && p.checkAddress(address) == Returned(true)
      && FetchNewData(address, p).Returned?
      && Absent(store, address)
      && FromFields(FetchNewData(address, p).value, now).Returned?
      && x.store == store + [FromFields(FetchNewData(address, p).value, now).value]
    ensures p.checkAddress(address) == Returned(true) && FetchNewData(address, p).Raised? ==>
      x.answer == Uncaught(FetchNewData(address, p).exc)
    ensures p.checkAddress(address).Raised? && p.checkAddress(address).exc != AssertionError ==>
      x == StoreExchange(Uncaught(p.checkAddress(address).exc), store, [CheckAddress(address)])
    ensures p.checkAddress(address) == Returned(true) && FetchNewData(address, p).Returned? ==>
      x == Insert(store, address, FetchNewData(address, p).value, now, [CheckAddress(address), AddressDetails(address)])
    ensures !x.answer.Details? && !x.answer.NotFound?
  {
    match p.checkAddress(address)
    case Returned(false) => StoreExchange(Rejected(InvalidAddress), store, [CheckAddress(address)])
    case Raised(e) =>
      if e == AssertionError then StoreExchange(Rejected(InvalidAddress), store, [CheckAddress(address)])
      else StoreExchange(Uncaught(e), store, [CheckAddress(address)])
    case Returned(true) =>
      var calls := [CheckAddress(address), AddressDetails(address)];
      match FetchNewData(address, p)
      case Raised(e) => StoreExchange(Uncaught(e), store, calls)
      case Returned(fields) => Insert(store, address, fields, now, calls)
  }

  /** The part of `create_address` after the payload is in: the lookup by
      the requested string and, when it finds nothing, the insertion. */
  function Insert(store: Store, address: string, fields: map<string, Value>, now: int, calls: seq<Call>): (x: StoreExchange)
    ensures x.calls == calls
    ensures x.answer == Rejected(AlreadyExists) <==> Lookup(store, address).Returned?
    ensures x.answer.Uncaught? || x.answer == Added || x.answer == Rejected(AlreadyExists)
    ensures x.store != store ==> x.answer == Added
    ensures x.answer == Added <==> Absent(store, address) && FromFields(fields, now).Returned?
    ensures x.answer == Added ==> x.store == store + [FromFields(fields, now).value]
    ensures Absent(store, address) && FromFields(fields, now).Raised? ==>
      x == StoreExchange(Uncaught(FromFields(fields, now).exc), store, calls)
    ensures Lookup(store, address) == Raised(MultipleObjectsReturned) ==>
      x == StoreExchange(Uncaught(MultipleObjectsReturned), store, calls)
  {
    match Lookup(store, address)
    case Returned(_) => StoreExchange(Rejected(AlreadyExists), store, calls)
    case Raised(e) =>
      if e == MultipleObjectsReturned then StoreExchange(Uncaught(e), store, calls)
      else
        match FromFields(fields, now)
        case Raised(e) => StoreExchange(Uncaught(e), store, calls)
        case Returned(rec) => StoreExchange(Added, store + [rec], calls)
  }

  /** A created row keeps every stored snapshot valid. */
  lemma CreateKeepsValid(store: Store, address: string, p: Provider, now: int)
    requires AllValid(store)
    ensures AllValid(CreateAddress(store, address, p, now).store)
  {
    if p.checkAddress(address) == Returned(true) && FetchNewData(address, p).Returned? {
      var fields := FetchNewData(address, p).value;
      var calls := [CheckAddress(address), AddressDetails(address)];
      assert CreateAddress(store, address, p, now) == Insert(store, address, fields, now, calls);
      InsertKeepsValid(store, address, fields, now, calls);
    }
  }

  /** An inserted row keeps every stored snapshot valid. */
  lemma InsertKeepsValid(store: Store, address: string, fields: map<string, Value>, now: int, calls: seq<Call>)
    requires AllValid(store)
    ensures AllValid(Insert(store, address, fields, now, calls).store)
  {
    match FromFields(fields, now)
    case Raised(_) =>
    case Returned(rec) =>
      AppendKeepsValid(store, rec);
  }

  /** Appending a valid snapshot keeps every stored snapshot valid. */
  lemma AppendKeepsValid(store: Store, rec: Address)
    requires AllValid(store) && Valid(rec)
    ensures AllValid(store + [rec])
  {
    var s := store + [rec];
    assert forall j :: 0 <= j < |store| ==> s[j] == store[j];
  }

  /** Appending a snapshot of an absent address keeps addresses distinct. */
  lemma AppendKeepsUnique(store: Store, rec: Address)
    requires Unique(store) && Absent(store, rec.address)
    ensures Unique(store + [rec])
  {
    var s := store + [rec];
    forall i, j | 0 <= i < j < |s|
      ensures s[i].address != s[j].address
    {
      assert s[i] == store[i];
      if j < |store| {
        assert s[j] == store[j];
      }
    }
  }

  /** Inserting from a payload that names the requested address keeps the
      stored addresses distinct. */
  lemma InsertKeepsUnique(store: Store, address: string, fields: map<string, Value>, now: int, calls: seq<Call>)
    requires Unique(store) && "address" in fields && fields["address"] == Text(address)
    ensures Unique(Insert(store, address, fields, now, calls).store)
  {
    var x := Insert(store, address, fields, now, calls);
    if x.store != store {
      var rec := FromFields(fields, now).value;
      FromFieldsFields(fields, now, AddressField);
      assert Get(rec, AddressField) == Text(address);
      AppendKeepsUnique(store, rec);
    }
  }

  /** When the provider echoes the address, creating never stores a second
      snapshot of one address. */
  lemma CreateKeepsUnique(store: Store, address: string, p: Provider, now: int)
    requires Unique(store) && Echoes(p, address)
    ensures Unique(CreateAddress(store, address, p, now).store)
  {
    if p.checkAddress(address) == Returned(true) && FetchNewData(address, p).Returned? {
      var fields := FetchNewData(address, p).value;
      assert "address" !in TxRefKeys;
      InsertKeepsUnique(store, address, fields, now, [CheckAddress(address), AddressDetails(address)]);
    }
  }

  /** Without the echo, uniqueness fails: when the payload for a new
      address names one already stored, the lookup by the requested string
      finds nothing and a second snapshot of the stored address is added. */
  lemma CreateDuplicatesWithoutEcho(stored: Address, address: string, p: Provider, now: int)
    requires stored.address != address && p.checkAddress(address) == Returned(true)
    requires FetchNewData(address, p).Returned?
    requires FetchNewData(address, p).value.Keys >= {"address"}
    requires FetchNewData(address, p).value["address"] == Text(stored.address)
    requires FromFields(FetchNewData(address, p).value, now).Returned?
    ensures CreateAddress([stored], address, p, now).answer == Added
    ensures !Unique(CreateAddress([stored], address, p, now).store)
  {
    var fields := FetchNewData(address, p).value;
    var rec := FromFields(fields, now).value;
    assert rec.address == stored.address by {
      FromFieldsFields(fields, now, AddressField);
    }
    assert CreateAddress([stored], address, p, now) == StoreExchange(Added, [stored, rec], [CheckAddress(address), AddressDetails(address)]) by {
      assert Absent([stored], address);
      CreateAppendsRecord([stored], address, p, now);
      assert [stored] + [rec] == [stored, rec];
    }
    assert [stored, rec][0].address == [stored, rec][1].address;
  }

  /** A validated address that no row has, with a payload `create` accepts,
      is added: the row built from the payload is appended after the check
      and the details call. */
  lemma CreateAppendsRecord(store: Store, address: string, p: Provider, now: int)
    requires p.checkAddress(address) == Returned(true) && FetchNewData(address, p).Returned?
    requires Absent(store, address) && FromFields(FetchNewData(address, p).value, now).Returned?
    ensures CreateAddress(store, address, p, now) ==
      StoreExchange(Added, store + [FromFields(FetchNewData(address, p).value, now).value],
        [CheckAddress(address), AddressDetails(address)])
  {
    var fields := FetchNewData(address, p).value;
    var calls := [CheckAddress(address), AddressDetails(address)];
    assert CreateAddress(store, address, p, now) == Insert(store, address, fields, now, calls);
  }

  /** The outer handler of `get_address_details`: a missing row is a 404,
      an `AssertionError` from anywhere inside is another 404, and any
      other exception escapes. */
  function Handled(e: Exception): (a: Answer)
    ensures e == DoesNotExist ==> a == NotFound(AddressNotFound)
    ensures e == AssertionError ==> a == NotFound(AddressNotValid)
    ensures e !in {DoesNotExist, AssertionError} ==> a == Uncaught(e)
  {
    if e == DoesNotExist then NotFound(AddressNotFound)
    else if e == AssertionError then NotFound(AddressNotValid)
    else Uncaught(e)
  }

  /** `get_address_details`. A validated address is looked up; a snapshot
      at most thirty minutes old is served as stored, an older one is
      stamped with `now`, overwritten with the provider's payload, saved and
      served. */
  function GetAddressDetails(store: Store, bookId: string, p: Provider, now: int): (x: StoreExchange)
    ensures x.answer == Rejected(InvalidAddress) <==> Rejects(p, bookId)
    ensures x.answer.Rejected? ==> x.store == store && x.calls == [CheckAddress(bookId)]
    ensures p.checkAddress(bookId) == Returned(true) && Absent(store, bookId) ==>
      x == StoreExchange(NotFound(AddressNotFound), store, [CheckAddress(bookId)])
    ensures p.checkAddress(bookId).Raised? && p.checkAddress(bookId).exc != AssertionError ==>
      x == StoreExchange(Handled(p.checkAddress(bookId).exc), store, [CheckAddress(bookId)])
    ensures p.checkAddress(bookId) == Returned(true) && Lookup(store, bookId).Raised? ==>
      x == StoreExchange(Handled(Lookup(store, bookId).exc), store, [CheckAddress(bookId)])
    ensures (p.checkAddress(bookId) == Returned(true) && Lookup(store, bookId).Returned? &&
      !IsStale(store[Lookup(store, bookId).value].createdAt, now)) ==>
      x == StoreExchange(Details(store[Lookup(store, bookId).value]), store, [CheckAddress(bookId)])
    ensures (p.checkAddress(bookId) == Returned(true) && Lookup(store, bookId).Returned? &&
      IsStale(store[Lookup(store, bookId).value].createdAt, now)) ==>
      x == RefreshAt(store, Lookup(store, bookId).value, p, now)
    ensures |x.store| == |store|
    ensures forall j :: 0 <= j < |store| && x.store[j] != store[j] ==> store[j].address == bookId
    ensures x.store != store ==>
      exists i :: 0 <= i < |store| && store[i].address == bookId && IsStale(store[i].createdAt, now) &&
        x.answer == Details(x.store[i])
    ensures AddressDetails(bookId) in x.calls ==>
      exists i :: 0 <= i < |store| && store[i].address == bookId && IsStale(store[i].createdAt, now)
    ensures AllValid(store) ==> AllValid(x.store)
  {
    var first := [CheckAddress(bookId)];
    match p.checkAddress(bookId)
    case Returned(false) => StoreExchange(Rejected(InvalidAddress), store, first)
    case Raised(e) =>
      if e == AssertionError then StoreExchange(Rejected(InvalidAddress), store, first)
      else StoreExchange(Handled(e), store, first)
    case Returned(true) =>
      match Lookup(store, bookId)
      case Raised(e) => StoreExchange(Handled(e), store, first)
      case Returned(i) =>
        if !IsStale(store[i].createdAt, now) then StoreExchange(Details(store[i]), store, first)
        else RefreshAt(store, i, p, now)
  }

  /** The refresh of the stale snapshot at `i`: fetch the payload, stamp
      and overwrite, save, serve. Any failure leaves the store as it was. */
  function RefreshAt(store: Store, i: nat, p: Provider, now: int): (x: StoreExchange)
    requires i < |store|
    ensures x.calls == [CheckAddress(store[i].address), AddressDetails(store[i].address)]
    ensures x.store == store || (x.answer.Details? && x.store == store[i := x.answer.record])
    ensures x.answer.Details? ==>
      && FetchNewData(store[i].address, p).Returned?
      && Refresh(store[i], FetchNewData(store[i].address, p).value, now) == Returned(x.answer.record)
      && x.store == store[i := x.answer.record]
    ensures !x.answer.Details? ==> x.store == store
    ensures !x.answer.Rejected?
    ensures FetchNewData(store[i].address, p).Raised? ==>
      x == StoreExchange(Handled(FetchNewData(store[i].address, p).exc), store, x.calls)
    ensures (FetchNewData(store[i].address, p).Returned? &&
      Refresh(store[i], FetchNewData(store[i].address, p).value, now).Raised?) ==>
      x == StoreExchange(Handled(Refresh(store[i], FetchNewData(store[i].address, p).value, now).exc), store, x.calls)
    ensures (FetchNewData(store[i].address, p).Returned? &&
      Refresh(store[i], FetchNewData(store[i].address, p).value, now).Returned?) ==>
      x.answer == Details(Refresh(store[i], FetchNewData(store[i].address, p).value, now).value)
  {
    var calls := [CheckAddress(store[i].address), AddressDetails(store[i].address)];
    match FetchNewData(store[i].address, p)
    case Raised(e) => StoreExchange(Handled(e), store, calls)
    case Returned(data) =>
      match Refresh(store[i], data, now)
      case Raised(e) => StoreExchange(Handled(e), store, calls)
      case Returned(refreshed) => StoreExchange(Details(refreshed), store[i := refreshed], calls)
  }

  /** A snapshot at most thirty minutes old is served as stored, without a
      payload request. */
  lemma FreshSnapshotServed(store: Store, bookId: string, p: Provider, now: int, i: nat)
    requires Unique(store) && i < |store| && store[i].address == bookId
    requires p.checkAddress(bookId) == Returned(true) && !IsStale(store[i].createdAt, now)
    ensures GetAddressDetails(store, bookId, p, now) == StoreExchange(Details(store[i]), store, [CheckAddress(bookId)])
  {
    LookupUnique(store, bookId);
  }

  /** An older snapshot of a valid row with a storable payload is replaced in
      place by the refreshed one, which is what is served. */
  lemma StaleSnapshotRefreshed(store: Store, bookId: string, p: Provider, now: int, i: nat)
    requires Unique(store) && i < |store| && store[i].address == bookId
    requires p.checkAddress(bookId) == Returned(true) && IsStale(store[i].createdAt, now)
    requires FetchNewData(bookId, p).Returned? && Valid(store[i]) && StorableData(FetchNewData(bookId, p).value)
    ensures Refresh(store[i], FetchNewData(bookId, p).value, now).Returned?
    ensures var refreshed := Refresh(store[i], FetchNewData(bookId, p).value, now).value;
      GetAddressDetails(store, bookId, p, now) ==
        StoreExchange(Details(refreshed), store[i := refreshed], [CheckAddress(bookId), AddressDetails(bookId)])
  {
    LookupUnique(store, bookId);
    RefreshSucceeds(store[i], FetchNewData(bookId, p).value, now);
  }

  /** An `AssertionError` while refreshing is answered as an invalid
      address with status 404; the snapshot is left as it was. */
  lemma StaleAssertionNotValid(store: Store, bookId: string, p: Provider, now: int, i: nat)
    requires Unique(store) && i < |store| && store[i].address == bookId
    requires p.checkAddress(bookId) == Returned(true) && IsStale(store[i].createdAt, now)
    requires p.details(bookId) == Raised(AssertionError)
    ensures GetAddressDetails(store, bookId, p, now) ==
      StoreExchange(NotFound(AddressNotValid), store, [CheckAddress(bookId), AddressDetails(bookId)])
  {
    LookupUnique(store, bookId);
  }

  /** When the provider echoes the address, a refresh keeps the stored
      addresses distinct. */
  lemma DetailsKeepsUnique(store: Store, bookId: string, p: Provider, now: int)
    requires Unique(store) && Echoes(p, bookId)
    ensures Unique(GetAddressDetails(store, bookId, p, now).store)
  {
    if p.checkAddress(bookId) == Returned(true) && Lookup(store, bookId).Returned? {
      var i := Lookup(store, bookId).value;
      if IsStale(store[i].createdAt, now) {
        RefreshAtKeepsUnique(store, i, p, now);
      }
    }
  }

  /** Refreshing the snapshot at `i` from a payload that echoes its address
      keeps the stored addresses distinct. */
  lemma RefreshAtKeepsUnique(store: Store, i: nat, p: Provider, now: int)
    requires Unique(store) && i < |store| && Echoes(p, store[i].address)
    ensures Unique(RefreshAt(store, i, p, now).store)
  {
    var x := RefreshAt(store, i, p, now);
    if x.answer.Details? {
      var data := FetchNewData(store[i].address, p).value;
      assert "address" !in TxRefKeys;
      RefreshFields(store[i], data, now, AddressField);
      assert x.store == store[i := x.answer.record];
      assert x.answer.record.address == store[i].address;
    }
  }
}

=== FILE: cookie.dfy ===
/** `getCookie` of transactionComponent.jsx: looks a name up in a
    `document.cookie` string of the form `name=value; name=value`. */
module Cookie {
  import opened Outcomes
  import opened Text

  /** What `String.prototype.trim` removes: ECMAScript white space
      (including the Unicode space separators) and line terminators. */
  const JsWhitespace: set<char> := {
    '\t', '\U{B}', '\U{C}', ' ', '\U{A0}', '\U{FEFF}', '\n', '\r', '\U{2028}', '\U{2029}',
    '\U{1680}', '\U{2000}', '\U{2001}', '\U{2002}', '\U{2003}', '\U{2004}', '\U{2005}',
    '\U{2006}', '\U{2007}', '\U{2008}', '\U{2009}', '\U{200A}', '\U{202F}', '\U{205F}', '\U{3000}'}

  /** The trimmed segment starts with `name=`. */
  predicate Matches(segment: string, name: string) {
    IsPrefix(name + "=", Strip(segment, JsWhitespace))
  }

  /** What follows the first `name=` of a matching trimmed segment. */
  function ValueOf(segment: string, name: string): string
    requires Matches(segment, name)
  {
    Strip(segment, JsWhitespace)[|name| + 1..]
  }

  /** `i` is the first segment whose trimmed text starts with `name=`. */
  predicate IsFirstMatch(segments: seq<string>, name: string, i: int) {
    && 0 <= i < |segments| && Matches(segments[i], name)
    && forall j :: 0 <= j < i ==> !Matches(segments[j], name)
  }

  /** No segment's trimmed text starts with `name=`. */
  predicate NoneMatches(segments: seq<string>, name: string) {
    forall j :: 0 <= j < |segments| ==> !Matches(segments[j], name)
  }

  /** The loop over the segments: the value of the first matching one. */
  function FirstMatch(segments: seq<string>, name: string): Option<string> {
    if |segments| == 0 then None
    else if Matches(segments[0], name) then Some(ValueOf(segments[0], name))
    else FirstMatch(segments[1..], name)
  }

  /** `getCookie` without the final `decodeURIComponent`: `null` for an
      empty cookie string or when no segment of it matches, otherwise the
      raw value of the first segment whose trimmed text starts with
      `name=`. */
  function FindCookie(cookie: string, name: string): (r: Option<string>)
    ensures r.None? <==> cookie == "" || NoneMatches(Split(cookie, ';'), name)
    ensures forall i :: cookie != "" && IsFirstMatch(Split(cookie, ';'), name, i) ==>
      r == Some(ValueOf(Split(cookie, ';')[i], name))
  {
    if cookie == "" then None
    else
      var segments := Split(cookie, ';');
      FirstMatchNone(segments, name);
      forall i | IsFirstMatch(segments, name, i)
        ensures FirstMatch(segments, name) == Some(ValueOf(segments[i], name))
      {
        FirstMatchIsFirst(segments, name, i);
      }
      FirstMatch(segments, name)
  }

  /** `getCookie`, with `decodeURIComponent` passed in as `decode`: `null`
      for an empty cookie string or when no segment matches, otherwise the
      decoded value of the first matching segment. */
  function GetCookie(cookie: string, name: string, decode: string -> string): (r: Option<string>)
    ensures r.None? <==> cookie == "" || NoneMatches(Split(cookie, ';'), name)
    ensures forall i :: cookie != "" && IsFirstMatch(Split(cookie, ';'), name, i) ==>
      r == Some(decode(ValueOf(Split(cookie, ';')[i], name)))
  {
    match FindCookie(cookie, name)
    case None => None
    case Some(v) => Some(decode(v))
  }

  /** The loop returns the value of the first matching segment. */
  lemma {:induction false} FirstMatchIsFirst(segments: seq<string>, name: string, i: int)
    requires IsFirstMatch(segments, name, i)
    ensures FirstMatch(segments, name) == Some(ValueOf(segments[i], name))
  {
    if i > 0 {
      assert !Matches(segments[0], name);
      assert forall j :: 0 <= j < i - 1 ==> segments[1..][j] == segments[j + 1];
      FirstMatchIsFirst(segments[1..], name, i - 1);
    }
  }

  /** The loop finds nothing exactly when no segment matches. */
  lemma {:induction false} FirstMatchNone(segments: seq<string>, name: string)
    ensures FirstMatch(segments, name).None? <==> NoneMatches(segments, name)
  {
    if |segments| > 0 {
      FirstMatchNone(segments[1..], name);
      assert forall j :: 1 <= j < |segments| ==> segments[j] == segments[1..][j - 1];
    }
  }

  /** The empty-string guard changes nothing: without it the single empty
      segment of `"".split(';')` would not match either. */
  lemma EmptyGuardRedundant(name: string)
    ensures FirstMatch(Split("", ';'), name) == None
    ensures FindCookie("", name) == None
  {
    assert Split("", ';') == [""];
    var t := Strip("", JsWhitespace);
    assert |t| == 0;
  }

  /** Segments after the first match are never looked at. */
  lemma {:induction false} FirstMatchAppend(a: seq<string>, b: seq<string>, name: string)
    requires FirstMatch(a, name).Some?
    ensures FirstMatch(a + b, name) == FirstMatch(a, name)
  {
    if !Matches(a[0], name) {
      assert (a + b)[1..] == a[1..] + b;
      FirstMatchAppend(a[1..], b, name);
    }
  }

  /** A later cookie of the same name never overrides an earlier one. */
  lemma LaterDuplicatesIgnored(first: string, rest: string, name: string)
    requires FindCookie(first, name).Some?
    ensures FindCookie(first + ";" + rest, name) == FindCookie(first, name)
  {
    SplitAppend(first, rest, ';');
    assert first + ";" + rest == first + [';'] + rest;
    FirstMatchAppend(Split(first, ';'), Split(rest, ';'), name);
  }

  /** No printable ASCII character other than the space is trimmed. */
  lemma VisibleNotWhitespace(c: char)
    requires '!' <= c <= '~'
    ensures c !in JsWhitespace
  {
  }

  /** A cookie string that is one untrimmed segment `name=value`. */
  lemma SingleCookie(cookie: string, name: string)
    requires |cookie| > 0 && ';' !in cookie
    requires '!' <= cookie[0] <= '~' && '!' <= cookie[|cookie| - 1] <= '~'
    ensures FindCookie(cookie, name) == if IsPrefix(name + "=", cookie) then Some(cookie[|name| + 1..]) else None
  {
    VisibleNotWhitespace(cookie[0]);
    VisibleNotWhitespace(cookie[|cookie| - 1]);
    assert StrippedAt(cookie, JsWhitespace, 0, cookie);
    StripExact(cookie, JsWhitespace, 0, cookie);
    SplitFree(cookie, ';');
    assert Split(cookie, ';') == [cookie];
    assert Matches(cookie, name) <==> IsPrefix(name + "=", cookie);
    assert FindCookie(cookie, name) == FirstMatch([cookie], name);
  }

  /** A cookie string `c` that is a lone `name=value` gives `value`. */
  lemma NameValueCookie(c: string, name: string, value: string)
    requires c == name + "=" + value
    requires |name| > 0 && '!' <= name[0] <= '~'
    requires ';' !in name && ';' !in value
    requires |value| > 0 ==> '!' <= value[|value| - 1] <= '~'
    ensures FindCookie(c, name) == Some(value)
  {
    assert ';' !in c by {
      forall i | 0 <= i < |c|
        ensures c[i] != ';'
      {
        if i < |name| {
          assert c[i] == name[i];
        } else if i > |name| {
          assert c[i] == value[i - |name| - 1];
        }
      }
    }
    assert c[0] == name[0];
    assert c[|c| - 1] == if |value| > 0 then value[|value| - 1] else '=';
    assert c[..|name| + 1] == name + "=";
    assert c[|name| + 1..] == value;
    SingleCookie(c, name);
  }

  /** The value of the cookie whose name is wanted. */
  lemma MatchingCookie()
    ensures FindCookie("csrftoken=abc", "csrftoken") == Some("abc")
  {
    NameValueCookie("csrftoken=abc", "csrftoken", "abc");
  }

  /** A cookie whose name merely starts with the wanted name does not match,
      since the next character must be `=`. */
  lemma LongerNameDoesNotMatch()
    ensures FindCookie("csrftoken2=x", "csrftoken") == None
  {
    var c := "csrftoken2=x";
    assert ';' !in c;
    SingleCookie(c, "csrftoken");
    assert c[9] != ("csrftoken" + "=")[9];
  }

  /** The value is everything after the first `name=`, `=` signs included. */
  lemma ValueMayContainEquals()
    ensures FindCookie("a=b=c", "a") == Some("b=c")
  {
    NameValueCookie("a=b=c", "a", "b=c");
  }

  /** A cookie set to the empty string has the empty value, not `null`. */
  lemma EmptyValue()
    ensures FindCookie("a=", "a") == Some("")
  {
    NameValueCookie("a=", "a", "");
  }
}

=== FILE: outcomes.dfy ===
/** Failure-carrying values shared by every module: Python's `None`, and the
    exceptions a call can raise instead of returning. */
module Outcomes {

  /** A value that may be absent (Python `None`, JavaScript `null`). */
  datatype Option<+T> = None | Some(value: T)

  /** The exception kinds the modelled code raises, catches or lets escape. */
  datatype Exception =
    | ValueError               // bad literal, bad hex, bad field value
    | ValidationError          // python-bitcoinlib's structural decode error
    | SerializationError       // python-bitcoinlib's truncated or over-long encoding
    | TypeError                // wrong argument type, unexpected keyword argument
    | KeyError                 // raised by the txid extraction on a malformed transaction
    | AttributeError           // attribute access on `None`
    | AssertionError           // blockcypher's rejection of a coin symbol or address
    | RateLimitError           // blockcypher's rate limit
    | DoesNotExist             // ORM lookup found no row
    | MultipleObjectsReturned  // ORM lookup found several rows
    | DatabaseError            // a row the database refuses to store
    | ProviderError            // any other failure of a remote call

  /** The outcome of a call that either returns a value or raises. */
  datatype Reply<+T> = Returned(value: T) | Raised(exc: Exception)
}

=== FILE: provider.dfy ===
/** The remote collaborators the views call (blockcypher, bit's
    NetworkAPI and fee service), as given reply functions, and the record of
    the calls a view makes. */
module Provider {
  import opened Outcomes
  import opened UtxoSelection
  import opened AddressRecord

  /** One call into a remote collaborator. */
  datatype Call =
    | CheckAddress(address: string)       // blockcypher.utils.is_valid_address_for_coinsymbol
    | AddressDetails(address: string)     // blockcypher.get_address_details
    | EstimateFee                         // bit.network.get_fee
    | ListUnspent(address: string)        // NetworkAPI.get_unspent_testnet
    | FetchTransaction(txid: string)      // NetworkAPI.get_transaction_by_id_testnet
    | PushTx(signedTx: string)            // blockcypher.pushtx
    | CountConfirmations(txHash: string)  // blockcypher.get_num_confirmations

  /** What each collaborator answers for the configured testnet symbol. */
  datatype Provider = Provider(
    checkAddress: string -> Reply<bool>,
    details: string -> Reply<map<string, Value>>,
    fee: Reply<int>,
    unspent: string -> Reply<seq<Utxo>>,
    transaction: string -> Reply<string>,
    pushTx: string -> Reply<bool>,
    confirmations: string -> Reply<int>)
}

=== FILE: signed_tx.dfy ===
/** The signed-transaction checks of utils.py: the structural gate run
    before broadcasting, and the identifier taken from the first input. */
module SignedTx {
  import opened Outcomes

  newtype Byte = b: int | 0 <= b < 256

  /** The output an input spends: the hash of its transaction and its index. */
  datatype Outpoint = Outpoint(hash: string, index: int)

  /** One input: what it spends and its unlocking script. */
  datatype TxIn = TxIn(prevout: Outpoint, scriptSig: seq<Byte>)

  /** A decoded transaction, reduced to its inputs. */
  datatype Tx = Tx(vin: seq<TxIn>)

  /** At least one input, and every input carries a non-empty unlocking script. */
  predicate IsStructurallySigned(tx: Tx) {
    |tx.vin| >= 1 && forall i :: 0 <= i < |tx.vin| ==> |tx.vin[i].scriptSig| > 0
  }

  /** `is_valid_signed_transaction`. `decode` stands for
      `CTransaction.deserialize(bytes.fromhex(hex))`. A `ValueError` or
      `ValidationError` from it reads as "invalid"; any other exception
      (python-bitcoinlib's `SerializationError` for a truncated or
      over-long encoding, say) escapes. */
  method IsValidSignedTransaction(hex: string, decode: string -> Reply<Tx>) returns (r: Reply<bool>)
    ensures r == Returned(true) <==> decode(hex).Returned? && IsStructurallySigned(decode(hex).value)
    ensures r.Raised? <==> decode(hex).Raised? && decode(hex).exc !in {ValueError, ValidationError}
    ensures r.Raised? ==> r.exc == decode(hex).exc
  {
    match decode(hex) {
      case Raised(e) =>
        if e == ValueError || e == ValidationError {
          return Returned(false);
        }
        return Raised(e);
      case Returned(tx) =>
        if |tx.vin| == 0 {
          return Returned(false);
        }
        for i := 0 to |tx.vin|
          invariant forall j :: 0 <= j < i ==> |tx.vin[j].scriptSig| > 0
        {
          if |tx.vin[i].scriptSig| == 0 {
            return Returned(false);
          }
        }
        return Returned(true);
    }
  }

  /** `get_txid_from_signed_transaction`. `deserialize` stands for
      pybitcointools' `deserialize`, whose failures propagate. The result is
      the hash of the output the first input spends, which names the parent
      of that output, not the signed transaction itself; a transaction
      without inputs raises `KeyError`. */
  function GetTxid(hex: string, deserialize: string -> Reply<Tx>): (r: Reply<string>)
    ensures r.Returned? <==> deserialize(hex).Returned? && |deserialize(hex).value.vin| > 0
    ensures r.Returned? ==> r.value == deserialize(hex).value.vin[0].prevout.hash
    ensures r.Raised? && deserialize(hex).Returned? ==> r.exc == KeyError
    ensures deserialize(hex).Raised? ==> r == Raised(deserialize(hex).exc)
  {
    match deserialize(hex)
    case Raised(e) => Raised(e)
    case Returned(tx) =>
      if |tx.vin| == 0 then Raised(KeyError) else Returned(tx.vin[0].prevout.hash)
  }

  /** Only the first input's outpoint hash matters: two transactions that
      agree on it get the same identifier, whatever their other inputs,
      scripts or output indices. */
  lemma TxidDependsOnFirstOutpointOnly(hex: string, hex': string, deserialize: string -> Reply<Tx>)
    requires deserialize(hex).Returned? && deserialize(hex').Returned?
    requires |deserialize(hex).value.vin| > 0 && |deserialize(hex').value.vin| > 0
    requires deserialize(hex).value.vin[0].prevout.hash == deserialize(hex').value.vin[0].prevout.hash
    ensures GetTxid(hex, deserialize) == GetTxid(hex', deserialize)
  {
  }
}

=== FILE: text.dfy ===
/** Character-level helpers shared by the Python and JavaScript models:
    prefix tests, whitespace stripping and splitting on a separator. */
module Text {

  /** `p` is a prefix of `s` (Python `startswith`, a JavaScript
      `substring(0, |p|) === p` comparison). */
  predicate IsPrefix(p: string, s: string) {
    |p| <= |s| && s[..|p|] == p
  }

  /** Number of characters of `ws` at the front of `s`. */
  function LeadingCount(s: string, ws: set<char>): (n: nat)
    ensures n <= |s|
    ensures forall i :: 0 <= i < n ==> s[i] in ws
    ensures n == |s| || s[n] !in ws
  {
    if |s| == 0 || s[0] !in ws then 0 else 1 + LeadingCount(s[1..], ws)
  }

  /** Number of characters of `ws` at the back of `s`. */
  function TrailingCount(s: string, ws: set<char>): (n: nat)
    ensures n <= |s|
    ensures forall i :: |s| - n <= i < |s| ==> s[i] in ws
    ensures n == |s| || s[|s| - n - 1] !in ws
  {
    if |s| == 0 || s[|s| - 1] !in ws then 0 else 1 + TrailingCount(s[..|s| - 1], ws)
  }

  /** `r` sits in `s` at offset `i` with only characters of `ws` around it. */
  predicate StrippedAt(s: string, ws: set<char>, i: int, r: string) {
    && 0 <= i <= |s| - |r|
    && s[i..i + |r|] == r
    && (forall k :: 0 <= k < i ==> s[k] in ws)
    && (forall k :: i + |r| <= k < |s| ==> s[k] in ws)
  }

  /** Removes the characters of `ws` from both ends (Python's `strip`,
      JavaScript's `trim`, each with its own whitespace set). The result is
      the infix of `s` that neither starts nor ends in `ws`, and everything
      removed was in `ws`. */
  function Strip(s: string, ws: set<char>): (r: string)
    ensures |r| > 0 ==> r[0] !in ws && r[|r| - 1] !in ws
    ensures exists i :: StrippedAt(s, ws, i, r)
  {
    var i := LeadingCount(s, ws);
    var t := s[i..];
    var j := TrailingCount(t, ws);
    var r := t[..|t| - j];
    assert s[i..i + |r|] == r;
    assert forall k :: i + |r| <= k < |s| ==> s[k] == t[k - i];
    assert StrippedAt(s, ws, i, r);
    r
  }

  /** The stripped form of `s` is unique: any infix that neither starts nor
      ends in `ws` and has only `ws` around it is the result of `Strip`. */
  lemma StripExact(s: string, ws: set<char>, i: int, r: string)
    requires StrippedAt(s, ws, i, r) && |r| > 0 && r[0] !in ws && r[|r| - 1] !in ws
    ensures Strip(s, ws) == r
  {
    var r' := Strip(s, ws);
    var i' :| StrippedAt(s, ws, i', r');
    assert s[i] == r[0];
    assert s[i + |r| - 1] == r[|r| - 1];
    if |r'| > 0 {
      assert s[i'] == r'[0] && s[i' + |r'| - 1] == r'[|r'| - 1];
      assert i == i';
      assert i + |r| == i' + |r'|;
    }
  }

  /** The segments of `s` between occurrences of `sep` (JavaScript
      `String.prototype.split` with a one-character separator): there is one
      more segment than separators, and empty segments are kept. */
  function Split(s: string, sep: char): (parts: seq<string>)
    ensures |parts| >= 1
  {
    if |s| == 0 then [""]
    else
      var rest := Split(s[1..], sep);
      if s[0] == sep then [""] + rest
      else [[s[0]] + rest[0]] + rest[1..]
  }

  /** No segment contains the separator. */
  lemma {:induction false} SplitSegmentsFree(s: string, sep: char)
    ensures forall i :: 0 <= i < |Split(s, sep)| ==> sep !in Split(s, sep)[i]
  {
    if |s| > 0 {
      SplitSegmentsFree(s[1..], sep);
      var rest := Split(s[1..], sep);
      if s[0] != sep {
        assert forall i :: 1 <= i < |Split(s, sep)| ==> Split(s, sep)[i] == rest[i];
        assert sep !in rest[0];
      }
    }
  }

  /** The segments glued back together with `sep` between neighbours. */
  function Join(parts: seq<string>, sep: char): string {
    if |parts| == 0 then ""
    else if |parts| == 1 then parts[0]
    else parts[0] + [sep] + Join(parts[1..], sep)
  }

  /** Joining the segments of a split gives back the original string. */
  lemma {:induction false} JoinSplit(s: string, sep: char)
    ensures Join(Split(s, sep), sep) == s
  {
    if |s| > 0 {
      var rest := Split(s[1..], sep);
      JoinSplit(s[1..], sep);
      if s[0] == sep {
        assert Split(s, sep) == [""] + rest;
      } else {
        var parts := [[s[0]] + rest[0]] + rest[1..];
        assert Split(s, sep) == parts;
        if |rest| == 1 {
          assert Join(parts, sep) == [s[0]] + rest[0];
        } else {
          assert parts[1..] == rest[1..];
          assert Join(parts, sep) == [s[0]] + rest[0] + [sep] + Join(rest[1..], sep);
        }
      }
    }
  }

  /** Splitting a join of separator-free segments gives back the segments. */
  lemma {:induction false} SplitJoin(parts: seq<string>, sep: char)
    requires |parts| >= 1
    requires forall i :: 0 <= i < |parts| ==> sep !in parts[i]
    ensures Split(Join(parts, sep), sep) == parts
  {
    if |parts| == 1 {
      SplitFree(parts[0], sep);
    } else {
      SplitJoin(parts[1..], sep);
      SplitAppend(parts[0], Join(parts[1..], sep), sep);
      SplitFree(parts[0], sep);
      assert [parts[0]] + parts[1..] == parts;
    }
  }

  /** A string without the separator is a single segment. */
  lemma {:induction false} SplitFree(s: string, sep: char)
    requires sep !in s
    ensures Split(s, sep) == [s]
  {
    if |s| > 0 {
      SplitFree(s[1..], sep);
      assert [s[0]] + s[1..] == s;
    }
  }

  /** One step of `Split`: a leading separator starts a new segment, any
      other character joins the first segment. */
  lemma SplitCons(c: char, t: string, sep: char)
    ensures Split([c] + t, sep) ==
      if c == sep then [""] + Split(t, sep) else [[c] + Split(t, sep)[0]] + Split(t, sep)[1..]
  {
    assert ([c] + t)[1..] == t;
  }

  /** A separator splits its two sides independently: the segments of
      `a + sep + b` are those of `a` followed by those of `b`. */
  lemma {:induction false} SplitAppend(a: string, b: string, sep: char)
    ensures Split(a + [sep] + b, sep) == Split(a, sep) + Split(b, sep)
  {
    if |a| == 0 {
      assert a + [sep] + b == [sep] + b;
      SplitCons(sep, b, sep);
      assert Split(a, sep) == [""];
    } else {
      SplitAppend(a[1..], b, sep);
      SplitAppendStep(a, b, sep);
    }
  }

  /** The inductive step of `SplitAppend`: from the claim for `a[1..]` to
      the claim for `a`. */
  lemma SplitAppendStep(a: string, b: string, sep: char)
    requires |a| > 0
    requires Split(a[1..] + [sep] + b, sep) == Split(a[1..], sep) + Split(b, sep)
    ensures Split(a + [sep] + b, sep) == Split(a, sep) + Split(b, sep)
  {
    var t := a[1..] + [sep] + b;
    assert a + [sep] + b == [a[0]] + t;
    assert a == [a[0]] + a[1..];
    SplitCons(a[0], t, sep);
    SplitCons(a[0], a[1..], sep);
    ConsSegments(a[0], sep, Split(a[1..], sep), Split(b, sep));
  }

  /** Prepending a character to the segments of `rest` and then appending
      `tail` gives the same segments as doing it the other way round. */
  lemma ConsSegments(c: char, sep: char, rest: seq<string>, tail: seq<string>)
    requires |rest| >= 1
    ensures (if c == sep then [""] + (rest + tail) else [[c] + (rest + tail)[0]] + (rest + tail)[1..])
      == (if c == sep then [""] + rest else [[c] + rest[0]] + rest[1..]) + tail
  {
    if c != sep {
      assert (rest + tail)[1..] == rest[1..] + tail;
    }
  }
}

=== FILE: tx_hash.dfy ===
/** `is_valid_tx_hash` of utils.py: a length test and then whatever Python's
    `int(tx_hash, 16)` accepts, which is more than 64 hex digits. */
module TxHash {
  import opened Text

  /** The characters `int()` skips around a literal: the six ASCII
      characters `Py_ISSPACE` recognises, and the non-ASCII Unicode
      whitespace CPython turns into a space before parsing. ASCII input is
      parsed as it is, so the separators U+001C to U+001F, which
      `str.isspace` counts as whitespace, are not skipped. */
  const PyWhitespace: set<char> := {
    ' ', '\t', '\n', '\r', '\U{B}', '\U{C}',
    '\U{85}', '\U{A0}', '\U{1680}', '\U{2000}', '\U{2001}', '\U{2002}', '\U{2003}',
    '\U{2004}', '\U{2005}', '\U{2006}', '\U{2007}', '\U{2008}', '\U{2009}', '\U{200A}',
    '\U{2028}', '\U{2029}', '\U{202F}', '\U{205F}', '\U{3000}'}

  /** No ASCII letter or digit is whitespace to `int()`. */
  lemma AsciiLettersNotWhitespace(c: char)
    requires ('a' <= c <= 'z') || ('A' <= c <= 'Z') || ('0' <= c <= '9')
    ensures c !in PyWhitespace
  {
  }

  predicate IsHexDigit(c: char) {
    ('0' <= c <= '9') || ('a' <= c <= 'f') || ('A' <= c <= 'F')
  }

  /** `d[i]` is a hex digit, or an underscore followed by one. */
  predicate IsGroupChar(d: string, i: nat)
    requires i < |d|
  {
    IsHexDigit(d[i]) || (d[i] == '_' && i + 1 < |d| && IsHexDigit(d[i + 1]))
  }

  /** Hex digits with single underscores between them: `h ('_'? h)*`. */
  predicate IsDigitGroups(d: string) {
    && |d| > 0 && IsHexDigit(d[0])
    && forall i :: 0 <= i < |d| ==> IsGroupChar(d, i)
  }

  /** The literal after a sign: either `0x`/`0X`, at most one underscore and
      digit groups, or digit groups alone. */
  predicate IsUnsignedLiteral(u: string) {
    if |u| >= 2 && u[0] == '0' && (u[1] == 'x' || u[1] == 'X') then
      var d := u[2..];
      IsDigitGroups(d) || (|d| > 0 && d[0] == '_' && IsDigitGroups(d[1..]))
    else IsDigitGroups(u)
  }

  /** `int(s, 16)` returns rather than raising `ValueError`: surrounding
      whitespace, then an optional `+` or `-`, then an unsigned literal. */
  predicate ParsesAsBase16(s: string) {
    var t := Strip(s, PyWhitespace);
    if |t| > 0 && (t[0] == '+' || t[0] == '-') then IsUnsignedLiteral(t[1..])
    else IsUnsignedLiteral(t)
  }

  /** `is_valid_tx_hash`: exactly 64 characters that `int(_, 16)` parses. */
  predicate IsValidTxHash(s: string) {
    |s| == 64 && ParsesAsBase16(s)
  }

  /** `n` copies of `c`. */
  function Repeat(c: char, n: nat): (r: string)
    ensures |r| == n && forall i :: 0 <= i < n ==> r[i] == c
  {
    if n == 0 then "" else [c] + Repeat(c, n - 1)
  }

  /** A string of hex digits only is a valid hash exactly when it is 64
      characters long. */
  lemma HexStringValidIffLength64(s: string)
    requires |s| > 0 && forall i :: 0 <= i < |s| ==> IsHexDigit(s[i])
    ensures IsValidTxHash(s) <==> |s| == 64
  {
    assert StrippedAt(s, PyWhitespace, 0, s);
    StripExact(s, PyWhitespace, 0, s);
    assert IsDigitGroups(s);
  }

  /** The characters an unsigned literal may use. */
  predicate IsLiteralChar(c: char) {
    IsHexDigit(c) || c == 'x' || c == 'X' || c == '_'
  }

  lemma DigitGroupsChars(d: string)
    requires IsDigitGroups(d)
    ensures forall k :: 0 <= k < |d| ==> IsLiteralChar(d[k])
  {
    forall k | 0 <= k < |d|
      ensures IsLiteralChar(d[k])
    {
      assert IsGroupChar(d, k);
    }
  }

  lemma UnsignedLiteralChars(u: string)
    requires IsUnsignedLiteral(u)
    ensures forall k :: 0 <= k < |u| ==> IsLiteralChar(u[k])
  {
    if |u| >= 2 && u[0] == '0' && (u[1] == 'x' || u[1] == 'X') {
      var d := u[2..];
      assert IsLiteralChar(u[0]) && IsLiteralChar(u[1]);
      if IsDigitGroups(d) {
        DigitGroupsChars(d);
      } else {
        DigitGroupsChars(d[1..]);
        assert forall k :: 1 <= k < |d| ==> d[k] == d[1..][k - 1];
        assert IsLiteralChar(d[0]);
      }
      assert forall k :: 2 <= k < |u| ==> u[k] == d[k - 2];
    } else {
      DigitGroupsChars(u);
    }
  }

  /** The characters of an optionally signed literal. */
  lemma SignedLiteralChars(t: string)
    requires if |t| > 0 && (t[0] == '+' || t[0] == '-') then IsUnsignedLiteral(t[1..]) else IsUnsignedLiteral(t)
    ensures forall k :: 0 <= k < |t| ==> IsLiteralChar(t[k]) || t[k] == '+' || t[k] == '-'
  {
    if |t| > 0 && (t[0] == '+' || t[0] == '-') {
      UnsignedLiteralChars(t[1..]);
      assert forall k :: 1 <= k < |t| ==> t[k] == t[1..][k - 1];
    } else {
      UnsignedLiteralChars(t);
    }
  }

  /** What an accepted hash is made of: hex digits, whitespace, a sign, the
      `x` of a `0x` prefix and underscores, nothing else. */
  lemma AcceptedCharacters(s: string)
    requires IsValidTxHash(s)
    ensures forall k :: 0 <= k < |s| ==> IsLiteralChar(s[k]) || s[k] in PyWhitespace || s[k] == '+' || s[k] == '-'
  {
    var t := Strip(s, PyWhitespace);
    var i :| StrippedAt(s, PyWhitespace, i, t);
    SignedLiteralChars(t);
    assert forall k :: i <= k < i + |t| ==> s[k] == t[k - i];
  }

  /** The documented cases: 64 `a`s pass and 63 fail. */
  lemma DocumentedHashes()
    ensures IsValidTxHash(Repeat('a', 64))
    ensures !IsValidTxHash(Repeat('a', 63))
  {
    HexStringValidIffLength64(Repeat('a', 64));
  }

  /** A string whose first character is neither whitespace, a sign nor a
      hex digit, and whose last character is not whitespace, is not parsed:
      nothing is stripped, and every literal starts with a hex digit. */
  lemma NonHexLetterRejected(s: string)
    requires |s| > 0 && s[0] !in PyWhitespace && s[|s| - 1] !in PyWhitespace
    requires s[0] != '+' && s[0] != '-' && !IsHexDigit(s[0])
    ensures !ParsesAsBase16(s)
  {
    assert StrippedAt(s, PyWhitespace, 0, s);
    StripExact(s, PyWhitespace, 0, s);
  }

  /** 64 copies of a letter that is not a hex digit fail. */
  lemma NonHexHashRejected()
    ensures !IsValidTxHash(Repeat('g', 64))
  {
    var g := Repeat('g', 64);
    assert g[0] == 'g' && g[63] == 'g';
    AsciiLettersNotWhitespace('g');
    NonHexLetterRejected(g);
  }

  /** A leading file separator (U+001C) is not skipped: a string of 64
      characters that starts with it is rejected. */
  lemma FileSeparatorRejected()
    ensures !IsValidTxHash("\U{1C}" + Repeat('a', 63))
  {
    var f := "\U{1C}" + Repeat('a', 63);
    assert f[0] == '\U{1C}' && f[|f| - 1] == 'a';
    AsciiLettersNotWhitespace('a');
    NonHexLetterRejected(f);
  }

  /** A run of one hex digit forms digit groups. */
  lemma RepeatedDigitGroups(c: char, n: nat)
    requires IsHexDigit(c) && n > 0
    ensures IsDigitGroups(Repeat(c, n))
  {
    var r := Repeat(c, n);
    forall i | 0 <= i < n
      ensures IsGroupChar(r, i)
    {
      assert r[i] == c;
    }
  }

  /** A `0x` prefix passes: "0x" and 62 hex digits make 64 characters. */
  lemma LenientPrefix()
    ensures IsValidTxHash("0x" + Repeat('a', 62))
  {
    var a62 := Repeat('a', 62);
    var p := "0x" + a62;
    AsciiLettersNotWhitespace('0');
    AsciiLettersNotWhitespace('a');
    assert StrippedAt(p, PyWhitespace, 0, p);
    StripExact(p, PyWhitespace, 0, p);
    assert p[2..] == a62;
    RepeatedDigitGroups('a', 62);
  }

  /** A sign passes: a minus and 63 hex digits make 64 characters. */
  lemma LenientSign()
    ensures IsValidTxHash("-" + Repeat('a', 63))
  {
    var a63 := Repeat('a', 63);
    var m := "-" + a63;
    AsciiLettersNotWhitespace('a');
    assert '-' !in PyWhitespace;
    assert StrippedAt(m, PyWhitespace, 0, m);
    StripExact(m, PyWhitespace, 0, m);
    assert m[1..] == a63;
    RepeatedDigitGroups('a', 63);
  }

  /** Surrounding whitespace passes: a space, 62 hex digits and a newline. */
  lemma LenientWhitespace()
    ensures IsValidTxHash(" " + Repeat('a', 62) + "\n")
  {
    var a62 := Repeat('a', 62);
    var w := " " + a62 + "\n";
    AsciiLettersNotWhitespace('a');
    assert w[1..1 + |a62|] == a62;
    assert StrippedAt(w, PyWhitespace, 1, a62);
    StripExact(w, PyWhitespace, 1, a62);
    RepeatedDigitGroups('a', 62);
  }
}

=== FILE: utxo_selection.dfy ===
/** First-fit selection of one unspent output to fund a payment
    (`first_fit_utxo_selection` in utils.py). */
module UtxoSelection {
  import opened Outcomes

  /** An unspent output as the provider lists it: the transaction that
      created it, its index there, and its value in satoshis. */
  datatype Utxo = Utxo(txid: string, txindex: int, amount: int)

  /** Sum of the amounts of `s`. */
  function Total(s: seq<Utxo>): int {
    if |s| == 0 then 0 else Total(s[..|s| - 1]) + s[|s| - 1].amount
  }

  /** The running sum, taken up to and including `unspent[k]`, reaches
      `required`. */
  predicate Reaches(unspent: seq<Utxo>, required: int, k: int) {
    0 <= k < |unspent| && Total(unspent[..k + 1]) >= required
  }

  /** `k` is the least index at which the running sum reaches `required`. */
  predicate FirstCrossing(unspent: seq<Utxo>, required: int, k: int) {
    Reaches(unspent, required, k) && forall j :: 0 <= j < k ==> !Reaches(unspent, required, j)
  }

  /** The selection loop, resumed at index `i` with the running sum of the
      outputs before it: the index of the output at which the running sum
      first reaches `required`, if any. */
  function CrossingFrom(unspent: seq<Utxo>, required: int, i: nat, total: int): (r: Option<nat>)
    requires i <= |unspent| && total == Total(unspent[..i])
    ensures r.Some? ==> i <= r.value < |unspent| && Reaches(unspent, required, r.value)
    ensures r.Some? ==> forall j :: i <= j < r.value ==> !Reaches(unspent, required, j)
    ensures r.None? ==> forall k :: i <= k < |unspent| ==> !Reaches(unspent, required, k)
    decreases |unspent| - i
  {
    if i == |unspent| then None
    else
      assert unspent[..i + 1][..i] == unspent[..i];
      var total' := total + unspent[i].amount;
      if total' >= required then Some(i)
      else CrossingFrom(unspent, required, i + 1, total')
  }

  /** `first_fit_utxo_selection`: walks the outputs in the given order and
      returns the one at which the running sum first reaches `required`.
      Only that boundary output is returned, not the outputs summed before
      it, so its own amount need not cover `required`. */
  function FirstFit(unspent: seq<Utxo>, required: int): (selected: Option<Utxo>)
    ensures selected.None? <==> forall k :: 0 <= k < |unspent| ==> !Reaches(unspent, required, k)
    ensures selected.Some? ==> exists k :: FirstCrossing(unspent, required, k) && selected.value == unspent[k]
  {
    match CrossingFrom(unspent, required, 0, 0)
    case None => None
    case Some(k) =>
      assert FirstCrossing(unspent, required, k);
      Some(unspent[k])
  }

  /** There is at most one first crossing. */
  lemma FirstCrossingUnique(unspent: seq<Utxo>, required: int, k: int, k': int)
    requires FirstCrossing(unspent, required, k) && FirstCrossing(unspent, required, k')
    ensures k == k'
  {
  }

  /** The selection is exactly the output at the first crossing. */
  lemma FirstFitSelectsFirstCrossing(unspent: seq<Utxo>, required: int, k: int)
    requires FirstCrossing(unspent, required, k)
    ensures FirstFit(unspent, required) == Some(unspent[k])
  {
    var k' :| FirstCrossing(unspent, required, k') && FirstFit(unspent, required).value == unspent[k'];
    FirstCrossingUnique(unspent, required, k, k');
  }

  /** An empty list never yields a selection, whatever `required` is. */
  lemma FirstFitEmpty(required: int)
    ensures FirstFit([], required) == None
  {
  }

  /** With non-negative amounts the running sums never decrease. */
  lemma {:induction false} TotalMonotone(unspent: seq<Utxo>, j: nat, k: nat)
    requires forall i :: 0 <= i < |unspent| ==> unspent[i].amount >= 0
    requires j <= k <= |unspent|
    ensures Total(unspent[..j]) <= Total(unspent[..k])
  {
    if j < k {
      TotalMonotone(unspent, j, k - 1);
      assert unspent[..k][..k - 1] == unspent[..k - 1];
    }
  }

  /** With non-negative amounts, nothing is selected exactly when the list is
      empty or all the amounts together fall short of `required`. */
  lemma FirstFitNoneIffShortfall(unspent: seq<Utxo>, required: int)
    requires forall i :: 0 <= i < |unspent| ==> unspent[i].amount >= 0
    ensures FirstFit(unspent, required).None? <==> |unspent| == 0 || Total(unspent) < required
  {
    if |unspent| > 0 {
      var last := |unspent| - 1;
      assert unspent[..last + 1] == unspent;
      if Total(unspent) < required {
        forall k | 0 <= k < |unspent|
          ensures !Reaches(unspent, required, k)
        {
          TotalMonotone(unspent, k + 1, |unspent|);
        }
      } else {
        assert Reaches(unspent, required, last);
      }
    }
  }

  /** Outputs appended after the selected one do not change the selection. */
  lemma FirstFitIgnoresLaterOutputs(unspent: seq<Utxo>, more: seq<Utxo>, required: int)
    requires FirstFit(unspent, required).Some?
    ensures FirstFit(unspent + more, required) == FirstFit(unspent, required)
  {
    var all := unspent + more;
    var k :| FirstCrossing(unspent, required, k) && FirstFit(unspent, required).value == unspent[k];
    forall j | 0 <= j <= k
      ensures Reaches(all, required, j) <==> Reaches(unspent, required, j)
    {
      assert all[..j + 1] == unspent[..j + 1];
    }
    FirstFitSelectsFirstCrossing(all, required, k);
  }

  /** The worked case: amounts 100, 200, 300, 500 and 500 required. The
      running sums are 100, 300, 600, so the 300 output is selected, not the
      500 one, although 300 alone does not cover 500. */
  lemma FirstFitBoundaryExample()
    ensures var unspent := [Utxo("a", 0, 100), Utxo("b", 1, 200), Utxo("c", 2, 300), Utxo("d", 3, 500)];
            FirstFit(unspent, 500) == Some(Utxo("c", 2, 300))
  {
    var unspent := [Utxo("a", 0, 100), Utxo("b", 1, 200), Utxo("c", 2, 300), Utxo("d", 3, 500)];
    assert unspent[..2][..1] == unspent[..1];
    assert unspent[..3][..2] == unspent[..2];
    assert Total(unspent[..1]) == 100;
    assert Total(unspent[..2]) == 300;
    assert Total(unspent[..3]) == 600;
    FirstFitSelectsFirstCrossing(unspent, 500, 2);
  }
}

=== FILE: views.dfy ===
/** The views of views.py that prepare, broadcast and follow a transaction.
    Each view is a function (or, where it runs a loop, a method) from the
    request's fields and the remote collaborators to the JSON response and
    the list of remote calls it made, in order. */
module Views {
  import opened Outcomes
  import opened UtxoSelection
  import opened AddressRecord
  import opened Provider
  import opened AddressFormat
  import opened TxHash
  import opened SignedTx

  const InvalidAmount := "Invalid amount"
  const InvalidInputType := "Invalid input type"
  const InsufficientBalance := "Insufficient balance"
  const MissingSignedTx := "Missing signed transaction data"
  const InvalidSignedTx := "Invalid signed transaction"
  const BroadcastFailed := "Error broadcasting the transaction"
  const MissingHash := "Missing transaction hash"
  const InvalidHash := "Invalid transaction hash"
  const RateLimited := "API rate limit exceeded. Please try again later."
  const ConfirmationsFailed := "Error getting confirmations"

  /** What `float(amount)` makes of the request's `amount`: a number, a
      `ValueError` (which `is_valid_amount` turns into `False`), or a
      `TypeError` for a missing or non-text, non-number field, which
      escapes. */
  datatype Amount = Numeric(btc: real) | NotNumeric | Uncoercible

  /** `is_valid_amount` followed by `if not amount`: the amount goes on only
      when it is a non-zero number. */
  predicate IsTruthy(amount: Amount) {
    amount.Numeric? && amount.btc != 0.0
  }

  /** `int(amount_in_btc * 100000000)`: Python's `int` truncates toward zero. */
  function Satoshis(btc: real): (s: int)
    ensures btc >= 0.0 ==> s as real <= btc * 100000000.0 < s as real + 1.0
    ensures btc < 0.0 ==> s as real - 1.0 < btc * 100000000.0 <= s as real
  {
    var x := btc * 100000000.0;
    if x >= 0.0 then x.Floor else -((-x).Floor)
  }

  /** Whole and half bitcoins convert exactly; a negative amount stays
      negative. */
  lemma SatoshisExamples()
    ensures Satoshis(1.0) == 100000000
    ensures Satoshis(0.5) == 50000000
    ensures Satoshis(-1.0) == -100000000
    ensures Satoshis(0.000000001) == 0
  {
  }

  /** The tuple `generate_unsigned_transaction` returns. */
  datatype UnsignedDraft = UnsignedDraft(
    txid: string, txindex: int, rawTx: string, toAddress: string, satoshis: int)

  /** A JSON response. `Error` carries the message of a
      `{"status": "error"}` body; `Uncaught` is an exception that escapes
      the view (an HTTP 500). */
  datatype Response =
    | Error(message: string)
    | Drafted(draft: UnsignedDraft)
    | Broadcasted(txid: string)
    | Confirmed(count: int)
    | Uncaught(exc: Exception)

  /** A response and the remote calls made to produce it. */
  datatype Exchange = Exchange(response: Response, calls: seq<Call>)

  /** `is_valid_bitcoin_address` on a request field that may be missing: a
      missing field reaches `re.match` as `None`, which raises `TypeError`. */
  function CheckField(address: Option<string>, p: Provider): (v: Verdict)
    ensures address.None? ==> v == Verdict(Raised(TypeError), [])
    ensures address.Some? && !IsValidAddressFormat(address.value) ==> v == Verdict(Returned(false), [])
    ensures address.Some? && IsValidAddressFormat(address.value) ==>
      v == Verdict(p.checkAddress(address.value), [CheckAddress(address.value)])
  {
    match address
    case None => Verdict(Raised(TypeError), [])
    case Some(a) => IsValidBitcoinAddress(a, p)
  }

  /** Both addresses pass, recipient first. */
  predicate AddressesPass(source: Option<string>, to: Option<string>, p: Provider) {
    CheckField(to, p).reply == Returned(true) && CheckField(source, p).reply == Returned(true)
  }

  /** The calls the two address checks make when both pass. */
  function AddressCalls(source: Option<string>, to: Option<string>, p: Provider): seq<Call> {
    CheckField(to, p).calls + CheckField(source, p).calls
  }

  /** `get_source_balance(source) + get_fee()` when both lookups return and
      the balance is an integer; `None` otherwise. */
  function Funds(source: string, p: Provider): Option<int> {
    if p.details(source).Returned? && "final_balance" in p.details(source).value
      && p.details(source).value["final_balance"].Int? && p.fee.Returned?
    then Some(p.details(source).value["final_balance"].n + p.fee.value)
    else None
  }

  /** The result of `generate_unsigned_transaction` and its calls. */
  datatype Drafting = Drafting(reply: Reply<UnsignedDraft>, calls: seq<Call>)

  /** `generate_unsigned_transaction`: list the source's unspent outputs,
      pick one first-fit against the amount in satoshis, and fetch the raw
      transaction that created it. When no output qualifies the selection is
      `None` and reading its `txid` raises `AttributeError`. */
  function GenerateUnsignedTransaction(source: string, btc: real, to: string, p: Provider): (g: Drafting)
    ensures |g.calls| >= 1 && g.calls[0] == ListUnspent(source)
    ensures p.unspent(source).Raised? ==> g == Drafting(Raised(p.unspent(source).exc), [ListUnspent(source)])
    ensures p.unspent(source).Returned? && NoneReaches(p.unspent(source).value, Satoshis(btc)) ==>
      g == Drafting(Raised(AttributeError), [ListUnspent(source)])
    ensures g.reply.Returned? ==>
      && p.unspent(source).Returned?
      && SpendsFirstCrossing(g.reply.value, p.unspent(source).value, Satoshis(btc), to, p)
      && g.calls == [ListUnspent(source), FetchTransaction(g.reply.value.txid)]
    ensures forall k :: p.unspent(source).Returned? && FirstCrossing(p.unspent(source).value, Satoshis(btc), k) ==>
      FetchesCrossing(g, source, p.unspent(source).value[k], btc, to, p)
  {
    match p.unspent(source)
    case Raised(e) => Drafting(Raised(e), [ListUnspent(source)])
    case Returned(unspent) =>
      var satoshis := Satoshis(btc);
      match FirstFit(unspent, satoshis)
      case None => Drafting(Raised(AttributeError), [ListUnspent(source)])
      case Some(utxo) =>
        forall k | FirstCrossing(unspent, satoshis, k)
          ensures unspent[k] == utxo
        {
          FirstFitSelectsFirstCrossing(unspent, satoshis, k);
        }
        var calls := [ListUnspent(source), FetchTransaction(utxo.txid)];
        match p.transaction(utxo.txid)
        case Raised(e) => Drafting(Raised(e), calls)
        case Returned(raw) => Drafting(Returned(UnsignedDraft(utxo.txid, utxo.txindex, raw, to, satoshis)), calls)
  }

  /** Once `utxo` is selected: its parent transaction is fetched, a failed
      fetch propagates its exception, and a successful one gives the draft
      spending `utxo` for the amount in satoshis. */
  predicate FetchesCrossing(g: Drafting, source: string, utxo: Utxo, btc: real, to: string, p: Provider) {
    && g.calls == [ListUnspent(source), FetchTransaction(utxo.txid)]
    && (p.transaction(utxo.txid).Raised? ==> g.reply == Raised(p.transaction(utxo.txid).exc))
    && (p.transaction(utxo.txid).Returned? ==>
          g.reply == Returned(UnsignedDraft(utxo.txid, utxo.txindex, p.transaction(utxo.txid).value, to, Satoshis(btc))))
  }

  /** No running total reaches the required amount. */
  predicate NoneReaches(unspent: seq<Utxo>, required: int) {
    forall k :: 0 <= k < |unspent| ==> !Reaches(unspent, required, k)
  }

  /** The draft spends the first output whose running total reaches the
      amount, carries its raw parent transaction, the recipient and the
      amount in satoshis. */
  predicate SpendsFirstCrossing(d: UnsignedDraft, unspent: seq<Utxo>, satoshis: int, to: string, p: Provider) {
    exists k :: 0 <= k < |unspent| && FirstCrossing(unspent, satoshis, k) &&
      d.txid == unspent[k].txid && d.txindex == unspent[k].txindex &&
      p.transaction(unspent[k].txid) == Returned(d.rawTx) &&
      d.toAddress == to && d.satoshis == satoshis
  }

  /** `get_transaction_data`. The amount is checked before anything else,
      then the recipient and the source (short-circuit), then the balance
      and the fee; only then are unspent outputs listed. The balance check
      compares satoshis plus the fee with the amount in bitcoin, and every
      exception of a collaborator escapes. */
  function GetTransactionData(source: Option<string>, to: Option<string>, amount: Amount, p: Provider): (x: Exchange)
    ensures amount.Uncoercible? ==> x == Exchange(Uncaught(TypeError), [])
    ensures x.response == Error(InvalidAmount) <==> amount == Numeric(0.0) || amount.NotNumeric?
    ensures x.response == Error(InvalidAmount) ==> x.calls == []
    ensures x.response == Error(InvalidInputType) <==>
      IsTruthy(amount) && (CheckField(to, p).reply == Returned(false) ||
        (CheckField(to, p).reply == Returned(true) && CheckField(source, p).reply == Returned(false)))
    ensures x.response == Error(InvalidInputType) ==> forall c :: c in x.calls ==> c.CheckAddress?
    ensures x.response == Error(InsufficientBalance) <==>
      IsTruthy(amount) && AddressesPass(source, to, p) && Funds(source.value, p).Some? &&
      (Funds(source.value, p).value as real) < amount.btc
    ensures x.response == Error(InsufficientBalance) ==>
      x.calls == AddressCalls(source, to, p) + [AddressDetails(source.value), EstimateFee]
    ensures x.response.Drafted? <==>
      IsTruthy(amount) && AddressesPass(source, to, p) && Funds(source.value, p).Some? &&
      (Funds(source.value, p).value as real) >= amount.btc &&
      GenerateUnsignedTransaction(source.value, amount.btc, to.value, p).reply.Returned?
    ensures x.response.Drafted? ==>
      GenerateUnsignedTransaction(source.value, amount.btc, to.value, p).reply == Returned(x.response.draft) &&
      x.calls == AddressCalls(source, to, p) + [AddressDetails(source.value), EstimateFee] +
        GenerateUnsignedTransaction(source.value, amount.btc, to.value, p).calls
    ensures IsTruthy(amount) && CheckField(to, p).reply.Raised? ==>
      x == Exchange(Uncaught(CheckField(to, p).reply.exc), CheckField(to, p).calls)
    ensures IsTruthy(amount) && CheckField(to, p).reply == Returned(true) && CheckField(source, p).reply.Raised? ==>
      x == Exchange(Uncaught(CheckField(source, p).reply.exc), AddressCalls(source, to, p))
    ensures IsTruthy(amount) && AddressesPass(source, to, p) ==>
      x == CheckFunds(source.value, to.value, amount.btc, p, AddressCalls(source, to, p))
  {
    match amount
    case Uncoercible => Exchange(Uncaught(TypeError), [])
    case NotNumeric => Exchange(Error(InvalidAmount), [])
    case Numeric(btc) =>
      if btc == 0.0 then Exchange(Error(InvalidAmount), [])
      else
        var toCheck := CheckField(to, p);
        match toCheck.reply
        case Raised(e) => Exchange(Uncaught(e), toCheck.calls)
        case Returned(false) => Exchange(Error(InvalidInputType), toCheck.calls)
        case Returned(true) =>
          var sourceCheck := CheckField(source, p);
          var calls := toCheck.calls + sourceCheck.calls;
          match sourceCheck.reply
          case Raised(e) => Exchange(Uncaught(e), calls)
          case Returned(false) => Exchange(Error(InvalidInputType), calls)
          case Returned(true) => CheckFunds(source.value, to.value, btc, p, calls)
  }

  /** The balance gate and the draft, after the address checks' `prefix`
      of calls. */
  function CheckFunds(source: string, to: string, btc: real, p: Provider, prefix: seq<Call>): (x: Exchange)
    ensures x.response == Error(InsufficientBalance) <==> Funds(source, p).Some? && (Funds(source, p).value as real) < btc
    ensures x.response == Error(InsufficientBalance) ==> x.calls == prefix + [AddressDetails(source), EstimateFee]
    ensures x.response.Drafted? <==>
      Funds(source, p).Some? && (Funds(source, p).value as real) >= btc &&
      GenerateUnsignedTransaction(source, btc, to, p).reply.Returned?
    ensures x.response.Drafted? ==>
      GenerateUnsignedTransaction(source, btc, to, p).reply == Returned(x.response.draft) &&
      x.calls == prefix + [AddressDetails(source), EstimateFee] + GenerateUnsignedTransaction(source, btc, to, p).calls
    ensures x.response.Uncaught? || x.response.Drafted? || x.response == Error(InsufficientBalance)
    ensures p.details(source).Raised? ==>
      x == Exchange(Uncaught(p.details(source).exc), prefix + [AddressDetails(source)])
    ensures p.details(source).Returned? && "final_balance" !in p.details(source).value ==>
      x == Exchange(Uncaught(KeyError), prefix + [AddressDetails(source)])
    ensures p.details(source).Returned? && "final_balance" in p.details(source).value && p.fee.Raised? ==>
      x == Exchange(Uncaught(p.fee.exc), prefix + [AddressDetails(source), EstimateFee])
    ensures (p.details(source).Returned? && "final_balance" in p.details(source).value && p.fee.Returned? &&
      !p.details(source).value["final_balance"].Int?) ==>
      x == Exchange(Uncaught(TypeError), prefix + [AddressDetails(source), EstimateFee])
    ensures (Funds(source, p).Some? && (Funds(source, p).value as real) >= btc &&
      GenerateUnsignedTransaction(source, btc, to, p).reply.Raised?) ==>
      x == Exchange(Uncaught(GenerateUnsignedTransaction(source, btc, to, p).reply.exc),
        prefix + [AddressDetails(source), EstimateFee] + GenerateUnsignedTransaction(source, btc, to, p).calls)
  {
    var calls := prefix + [AddressDetails(source)];
    match p.details(source)
    case Raised(e) => Exchange(Uncaught(e), calls)
    case Returned(details) =>
      if "final_balance" !in details then Exchange(Uncaught(KeyError), calls)
      else
        var calls := calls + [EstimateFee];
        match p.fee
        case Raised(e) => Exchange(Uncaught(e), calls)
        case Returned(fee) =>
          match details["final_balance"]
          case Int(balance) =>
            if ((balance + fee) as real) < btc then Exchange(Error(InsufficientBalance), calls)
            else
              var g := GenerateUnsignedTransaction(source, btc, to, p);
              (match g.reply
               case Raised(e) => Exchange(Uncaught(e), calls + g.calls)
               case Returned(draft) => Exchange(Drafted(draft), calls + g.calls))
          case _ => Exchange(Uncaught(TypeError), calls)
  }

  /** The Bitcoin genesis address, which the address format accepts. */
  const Genesis := "1A1zP1eP5QGefi2DMPTfTL5SLmv7DivfNa"

  /** Collaborators that accept every address, report `balance` satoshis
      held in one unspent output of that amount, and charge no fee. */
  function OneOutput(balance: int): Provider {
    Provider(
      a => Returned(true),
      a => Returned(map["final_balance" := Int(balance)]),
      Returned(0),
      a => Returned([Utxo("parent", 0, balance)]),
      t => Returned("raw"),
      s => Returned(true),
      h => Returned(1))
  }

  lemma GenesisPasses(p: Provider)
    requires p.checkAddress(Genesis) == Returned(true)
    ensures AddressesPass(Some(Genesis), Some(Genesis), p)
    ensures AddressCalls(Some(Genesis), Some(Genesis), p) == [CheckAddress(Genesis), CheckAddress(Genesis)]
  {
    AcceptsKnownAddress();
  }

  /** Once the amount is non-zero and both addresses pass, the view is the
      balance gate followed by the draft. */
  lemma GatesPassed(source: string, to: string, btc: real, p: Provider)
    requires btc != 0.0 && AddressesPass(Some(source), Some(to), p)
    ensures GetTransactionData(Some(source), Some(to), Numeric(btc), p) ==
      CheckFunds(source, to, btc, p, AddressCalls(Some(source), Some(to), p))
  {
  }

  /** With enough funds on the books, the view's outcome is the draft's. */
  lemma FundedOutcome(source: string, to: string, btc: real, p: Provider, prefix: seq<Call>)
    requires Funds(source, p).Some? && (Funds(source, p).value as real) >= btc
    ensures CheckFunds(source, to, btc, p, prefix).response ==
      match GenerateUnsignedTransaction(source, btc, to, p).reply
      case Raised(e) => Uncaught(e)
      case Returned(d) => Drafted(d)
  {
  }

  /** The balance gate adds satoshis to the fee and compares the sum with an
      amount in bitcoin: one satoshi passes for half a bitcoin, and then no
      output reaches the 50000000 satoshis, so reading the `None`
      selection's `txid` crashes the view. */
  lemma UnitMismatchCrashes()
    ensures GetTransactionData(Some(Genesis), Some(Genesis), Numeric(0.5), OneOutput(1)).response == Uncaught(AttributeError)
  {
    var p := OneOutput(1);
    GenesisPasses(p);
    GatesPassed(Genesis, Genesis, 0.5, p);
    assert Funds(Genesis, p) == Some(1);
    FundedOutcome(Genesis, Genesis, 0.5, p, AddressCalls(Some(Genesis), Some(Genesis), p));
    SatoshisExamples();
    var unspent := [Utxo("parent", 0, 1)];
    assert p.unspent(Genesis) == Returned(unspent);
    assert Total(unspent[..1]) == 1 by {
      assert unspent[..1] == unspent;
    }
    assert NoneReaches(unspent, 50000000);
  }

  /** A negative amount is truthy and below any balance, so it passes every
      gate, and the draft spends the first output for a negative number of
      satoshis. */
  lemma NegativeAmountDrafts()
    ensures GetTransactionData(Some(Genesis), Some(Genesis), Numeric(-1.0), OneOutput(5)).response ==
      Drafted(UnsignedDraft("parent", 0, "raw", Genesis, -100000000))
  {
    var p := OneOutput(5);
    GenesisPasses(p);
    GatesPassed(Genesis, Genesis, -1.0, p);
    assert Funds(Genesis, p) == Some(5);
    FundedOutcome(Genesis, Genesis, -1.0, p, AddressCalls(Some(Genesis), Some(Genesis), p));
    SatoshisExamples();
    var unspent := [Utxo("parent", 0, 5)];
    assert p.unspent(Genesis) == Returned(unspent);
    assert unspent[..1] == unspent;
    assert FirstCrossing(unspent, -100000000, 0);
    FirstFitSelectsFirstCrossing(unspent, -100000000, 0);
    assert p.transaction("parent") == Returned("raw");
  }

  /** The signed transaction went past the missing-data check. */
  predicate Present(signedTx: Option<string>) {
    signedTx.Some? && signedTx.value != ""
  }

  /** `broadcast_signed_transaction`. The validity check runs outside the
      `try`, so an exception it lets through escapes; everything after it is
      inside, so a failed push, a failed identifier extraction or any
      exception reports the same broadcast error, even when the push itself
      succeeded. `decode` is python-bitcoinlib's decoder used by the check,
      `deserialize` pybitcointools' decoder used for the identifier. */
  method BroadcastSignedTransaction(signedTx: Option<string>, p: Provider,
      decode: string -> Reply<Tx>, deserialize: string -> Reply<Tx>) returns (x: Exchange)
    ensures !Present(signedTx) <==> x == Exchange(Error(MissingSignedTx), [])
    ensures x.response.Uncaught? <==>
      Present(signedTx) && decode(signedTx.value).Raised? && decode(signedTx.value).exc !in {ValueError, ValidationError}
    ensures x.response.Uncaught? ==> x.response.exc == decode(signedTx.value).exc && x.calls == []
    ensures x.response == Error(InvalidSignedTx) <==>
      Present(signedTx) && !x.response.Uncaught? &&
      !(decode(signedTx.value).Returned? && IsStructurallySigned(decode(signedTx.value).value))
    ensures x.response == Error(InvalidSignedTx) ==> x.calls == []
    ensures x.calls != [] <==>
      Present(signedTx) && decode(signedTx.value).Returned? && IsStructurallySigned(decode(signedTx.value).value)
    ensures x.calls != [] ==> x.calls == [PushTx(signedTx.value)]
    ensures x.response.Broadcasted? <==>
      x.calls != [] && p.pushTx(signedTx.value) == Returned(true) && GetTxid(signedTx.value, deserialize).Returned?
    ensures x.response.Broadcasted? ==> x.response.txid == GetTxid(signedTx.value, deserialize).value
    ensures x.calls != [] && !x.response.Broadcasted? ==> x.response == Error(BroadcastFailed)
  {
    if !Present(signedTx) {
      return Exchange(Error(MissingSignedTx), []);
    }
    var hex := signedTx.value;
    var valid := IsValidSignedTransaction(hex, decode);
    match valid {
      case Raised(e) =>
        return Exchange(Uncaught(e), []);
      case Returned(false) =>
        return Exchange(Error(InvalidSignedTx), []);
      case Returned(true) =>
        var calls := [PushTx(hex)];
        if p.pushTx(hex) != Returned(true) {
          return Exchange(Error(BroadcastFailed), calls);
        }
        match GetTxid(hex, deserialize) {
          case Raised(_) =>
            return Exchange(Error(BroadcastFailed), calls);
          case Returned(txid) =>
            return Exchange(Broadcasted(txid), calls);
        }
    }
  }

  /** `get_confirmations`. A missing or empty hash and a malformed one are
      answered without a remote call; the rate limit has its own message,
      and every other exception of the lookup is reported, never escaping. */
  function GetConfirmations(hash: Option<string>, p: Provider): (x: Exchange)
    ensures (hash.None? || hash == Some("")) <==> x == Exchange(Error(MissingHash), [])
    ensures x.response == Error(InvalidHash) <==> Present(hash) && !IsValidTxHash(hash.value)
    ensures x.calls == if Present(hash) && IsValidTxHash(hash.value) then [CountConfirmations(hash.value)] else []
    ensures !x.response.Uncaught?
    ensures x.response.Confirmed? <==> x.calls != [] && p.confirmations(hash.value).Returned?
    ensures x.response.Confirmed? ==> x.response.count == p.confirmations(hash.value).value
    ensures x.response == Error(RateLimited) <==> x.calls != [] && p.confirmations(hash.value) == Raised(RateLimitError)
    ensures x.response == Error(ConfirmationsFailed) <==>
      x.calls != [] && p.confirmations(hash.value).Raised? && p.confirmations(hash.value).exc != RateLimitError
  {
    if !Present(hash) then Exchange(Error(MissingHash), [])
    else if !IsValidTxHash(hash.value) then Exchange(Error(InvalidHash), [])
    else
      var calls := [CountConfirmations(hash.value)];
      match p.confirmations(hash.value)
      case Returned(n) => Exchange(Confirmed(n), calls)
      case Raised(RateLimitError) => Exchange(Error(RateLimited), calls)
      case Raised(_) => Exchange(Error(ConfirmationsFailed), calls)
  }
}
